=== FILE: README.md ===
# Minion context: a verified model of the resolution engine

`MinionContext` is the core of the codex-minion inversion-of-control
container. When it is started, it does the following in order:

1. Merges the configured property sources and overrides them with system
   properties.
2. Instantiates the `@BeanProvider` classes and registers what each
   `@Singleton` provider method returns.
3. Instantiates and registers the scanned `@Singleton` classes.
4. Wires every `@Inject` and `@PropertyValue` field of every registered bean.
5. Runs the `@PostConstruct` hooks.

`prototype` builds a fresh, unregistered object whose `@Inject` fields are
wired.

This project models that engine in two layers:

- **Functions over an explicit state.** The state is a catalog of
  `(instance, name, type)` records, a heap of objects with their field values,
  and the next free object id. These functions live in the `Injection`,
  `Bootstrap`, `Lifecycle`, `Properties` and `Catalog` modules. The
  container's rules are proved about them: precedence, counting candidates,
  naming, last-writer-wins merge, and fail-fast order.
- **The `Context.Container` class.** It holds the same state in mutable
  fields: `started`, `properties`, `catalog`, `heap`, `nextId`, and the log
  `invoked` of hook calls. It has one method per operation of the source. The
  methods use loops. Each one is proved to leave exactly the state, and
  return exactly the outcome, that the corresponding function describes.

Reflection becomes data:

- A class is a `ClassDesc`. It records its annotations, whether it is an
  interface, whether its constructor succeeds, and its assignable supertypes.
- A field is a `FieldDesc` holding its annotations and declared type.
- A method is a `MethodDesc` holding its annotations, parameter count,
  declared return type and an `Outcome`. The outcome either returns an object
  of a given class or throws.

Exceptions become a `Fault`:

- `Coded(code)` is a `CoreException` with a status code.
- `Generic` is the code-less `CoreException()` that `injectDependency`
  rethrows.
- `Exhausted` stands for a stack overflow. It is an `Error`, so the
  `catch (Exception)` of `injectDependency` does not catch it.

`prototype` and `injectDependency` call each other with no cycle check. The
model gives them a `fuel` bound and fails with `Exhausted` when it runs out.

## Model

| member | source | states |
|---|---|---|
| Context.Container.constructor | codex-minion/src/main/java/apycazo/codex/minion/context/MinionContext.java:39-47 | A new context is not started and has empty properties, catalog and heap. |
| Context.Container.Start | codex-minion/src/main/java/apycazo/codex/minion/context/MinionContext.java:49-67 | A second call returns normally and changes nothing. A first call leaves exactly the properties, state and hook log of `StartF`. `started` becomes true exactly when every phase succeeded. |
| Context.Container.Phases | codex-minion/src/main/java/apycazo/codex/minion/context/MinionContext.java:53-63 | Runs the phases in order: properties, registration, then injection and init. Each runs only if the previous one succeeded. Leaves exactly the properties, state, hook log and outcome of `StartF`. |
| Context.Container.Scan | codex-minion/src/main/java/apycazo/codex/minion/context/MinionContext.java:56-59 | Runs provider registration, then singleton registration if the first succeeded. Leaves exactly the state and outcome of `RegisterF`. |
| Context.Container.Ready | codex-minion/src/main/java/apycazo/codex/minion/context/MinionContext.java:60-63 | Runs injection, then init if injection succeeded. Leaves exactly the state, hook log and outcome of `ReadyF`. |
| Bootstrap.StartRegisters | codex-minion/src/main/java/apycazo/codex/minion/context/MinionContext.java:49-67 | After a successful start, the properties are the merged table. The catalog is the old catalog, then one record per `@Singleton` provider method, then one per scanned singleton, in order. |
| Bootstrap.StartWires | codex-minion/src/main/java/apycazo/codex/minion/context/MinionContext.java:59-61 | After a successful start, every `@Inject`/`@PropertyValue` field of every registered bean holds what its route prescribes. A prototype-routed field holds an object of the field's type that no catalog record holds. |
| Bootstrap.StartRunsHooks | codex-minion/src/main/java/apycazo/codex/minion/context/MinionContext.java:62-63 | After a successful start, the hooks invoked are exactly every bean's hooks, bean by bean in registration order. |
| Bootstrap.StartF | codex-minion/src/main/java/apycazo/codex/minion/context/MinionContext.java:49-67 | The phases of a first `start`. The properties are the merged table, the state stays valid, the catalog is only appended to and no object is lost. |
| Bootstrap.ReadyF | codex-minion/src/main/java/apycazo/codex/minion/context/MinionContext.java:60-63 | Injection then init keep the catalog and every object, leave the properties as they are, and fail only with `Generic`, `Exhausted` or `BEAN_INIT_FAILED`. |
| Bootstrap.RegisterF | codex-minion/src/main/java/apycazo/codex/minion/context/MinionContext.java:56-59 | The two registration phases keep the state valid. They only append to the catalog and leave every existing object unchanged. |
| Bootstrap.RegisterRecords | codex-minion/src/main/java/apycazo/codex/minion/context/MinionContext.java:56-59 | On success the catalog is the old catalog, then one record per `@Singleton` provider method, then one per scanned singleton, in order. |
| Context.Container.ResolveProperties | codex-minion/src/main/java/apycazo/codex/minion/context/MinionContext.java:233-239 | The new table is `Merge` of the old one: `putAll` of each readable source in order, then a system override of each key. |
| Properties.PutAll | codex-minion/src/main/java/apycazo/codex/minion/context/MinionContext.java:234 | `putAll` of the readable sources never removes a key. |
| Properties.Override | codex-minion/src/main/java/apycazo/codex/minion/context/MinionContext.java:235-238 | The system override replaces values but never adds or removes a key. |
| Properties.Merge | codex-minion/src/main/java/apycazo/codex/minion/context/MinionContext.java:233-239 | `resolveProperties` never removes a key from the table. |
| Properties.PutAllKeys | codex-minion/src/main/java/apycazo/codex/minion/context/MinionContext.java:234 | A key is in the merged table exactly when it was already there or some readable source defines it. |
| Properties.PutAllLastWriter | codex-minion/src/main/java/apycazo/codex/minion/context/MinionContext.java:234 | A key takes the value from the last readable source that defines it. |
| Properties.PutAllUndefined | codex-minion/src/main/java/apycazo/codex/minion/context/MinionContext.java:234 | A key no source defines keeps its old value. |
| Properties.MergeFromEmpty | codex-minion/src/main/java/apycazo/codex/minion/context/MinionContext.java:233-239 | From an empty table, the keys are exactly those some source defines, so a system property never adds a key. Each key maps to its system property if one is set, and otherwise to the last source's value. |
| Properties.ResolveProperty | codex-minion/src/main/java/apycazo/codex/minion/context/MinionContext.java:197-213 | A missing key fails `PROPERTY_NOT_FOUND`. A `String` succeeds with the text. `int`/`Integer` and `boolean`/`Boolean` succeed exactly when the parser accepts the text, and otherwise fail `PROPERTY_TYPE_ERROR`. Any other type fails `PROPERTY_TYPE_ERROR`. A success is a faithful reading of the text. |
| Properties.UnsupportedNeverParses | codex-minion/src/main/java/apycazo/codex/minion/context/MinionContext.java:209-211 | For an unsupported type name the outcome does not depend on the parsers. |
| Context.Container.Instance | codex-minion/src/main/java/apycazo/codex/minion/context/MinionContext.java:95-105 | Leaves exactly the state and outcome of `InstanceF`. |
| Injection.InstanceF | codex-minion/src/main/java/apycazo/codex/minion/context/MinionContext.java:95-105 | An interface fails `BEAN_IS_INTERFACE`. A failing constructor fails `BEAN_INSTANCE_FAILED`. On failure nothing changes. Otherwise a fresh id holds a new object of the class, with no field set by the container. |
| Context.Container.Prototype | codex-minion/src/main/java/apycazo/codex/minion/context/MinionContext.java:70-76 | Leaves exactly the state and outcome of `ProtoF`. |
| Injection.ProtoF | codex-minion/src/main/java/apycazo/codex/minion/context/MinionContext.java:70-76 | A prototype is a fresh object of the requested class. The catalog is unchanged, so nothing is registered. No existing object changes. Interface and constructor failures leave the state as it was. `ProtoOutcome` gives when it succeeds and what a failure is. |
| Injection.ProtoOutcome | codex-minion/src/main/java/apycazo/codex/minion/context/MinionContext.java:70-76 | For a class that can be instantiated, `prototype` succeeds exactly when wiring the `@Inject` fields of the new object succeeds; the state is the one that wiring leaves, the result is the new object and a failure is the wiring's failure. |
| Injection.InjectTargets | codex-minion/src/main/java/apycazo/codex/minion/context/MinionContext.java:72-73 | Every selected field is `@Inject`, and none is added. |
| Injection.InjectTargetsSelect | codex-minion/src/main/java/apycazo/codex/minion/context/MinionContext.java:72-73 | `prototype` selects exactly the `@Inject` fields. |
| Injection.ProtoWired | codex-minion/src/main/java/apycazo/codex/minion/context/MinionContext.java:70-76 | A successful prototype has every `@Inject` field of its class wired by its route. A prototype-routed field holds an object of the field's type that no catalog record holds. |
| Injection.PrototypeRouteWired | codex-minion/src/main/java/apycazo/codex/minion/context/MinionContext.java:167-172 | A prototype-routed field receives a reference to exactly the object `ProtoF` builds one level down, in the state `ProtoF` leaves, and every `@Inject` field of that object is wired: a nested prototype is itself fully injected. |
| Injection.ProtoSetsOnlyInject | codex-minion/src/main/java/apycazo/codex/minion/context/MinionContext.java:70-76 | The container sets no field of a prototype other than its class's `@Inject` fields, so a field marked only `@PropertyValue` is not set by the container. |
| Injection.PrototypesShareSingletons | codex-minion/src/main/java/apycazo/codex/minion/context/MinionContext.java:70-76 | Two prototypes of one class are distinct objects. A catalog-resolved dependency is the same bean in both. |
| Context.Container.InjectFields | codex-minion/src/main/java/apycazo/codex/minion/context/MinionContext.java:72-74 | The `forEach(injectDependency)` loop over selected fields leaves exactly the state and outcome of `InjectFieldsF`. |
| Injection.InjectFieldsF | codex-minion/src/main/java/apycazo/codex/minion/context/MinionContext.java:72-74 | Wiring a list of fields changes only the target's fields of those names, keeps the target's class and every other object, and lets only `Generic`/`Exhausted` escape. `InjectFieldsSucceed` and `InjectFieldsFailure` give when it succeeds and which field a failure comes from. |
| Injection.InjectFieldsFailure | codex-minion/src/main/java/apycazo/codex/minion/context/MinionContext.java:72-74 | A failed wiring is exactly `injectDependency` on the first field that fails, run on the state the fields before it left, all of which were set. |
| Injection.InjectFieldsSucceed | codex-minion/src/main/java/apycazo/codex/minion/context/MinionContext.java:72-74 | Wiring succeeds exactly when every field's `injectDependency` succeeds on the state the fields before it left. |
| Injection.FieldsWired | codex-minion/src/main/java/apycazo/codex/minion/context/MinionContext.java:72-74 | After wiring a list of distinctly named fields, every one of them holds what its route prescribes. A prototype-routed field holds an object of the field's type that no catalog record holds. |
| Context.Container.InjectDependency | codex-minion/src/main/java/apycazo/codex/minion/context/MinionContext.java:160-195 | Leaves exactly the state and outcome of `InjectF`. |
| Context.Container.ResolveValue | codex-minion/src/main/java/apycazo/codex/minion/context/MinionContext.java:163-189 | Leaves exactly the state and value of `InnerValueF`, the body of the `try`; the lookup branch returns `Lookup`'s outcome: no candidate fails `UNABLE_TO_INJECT_NAMED`, one is its instance, more fail `MULTIPLE_DEFINITIONS`. |
| Injection.RouteOf | codex-minion/src/main/java/apycazo/codex/minion/context/MinionContext.java:164-178 | The property marker wins. Otherwise a `@Prototype` marker on the field or on its type routes to `prototype`. Otherwise the field is looked up under its `@Named` qualifier. |
| Injection.Escaped | codex-minion/src/main/java/apycazo/codex/minion/context/MinionContext.java:191-194 | The `catch (Exception)` rethrows every caught exception as a code-less `CoreException`. Only a stack overflow, which it does not catch, escapes as itself. |
| Injection.InjectF | codex-minion/src/main/java/apycazo/codex/minion/context/MinionContext.java:160-195 | Fails exactly when the inner resolution fails. Every failure escapes code-less (`Generic`), or as `Exhausted`, and leaves the target object unchanged. On success only field `f` of the target changes, and it is wired by its route. No other existing object changes. |
| Injection.InjectResolved | codex-minion/src/main/java/apycazo/codex/minion/context/MinionContext.java:160-195 | The field is set to exactly the value the `try` resolved. The exception that escapes is exactly `Escaped` of the one raised inside, so a property or lookup failure escapes as `Generic` and never as `Exhausted`. |
| Injection.InnerValueF | codex-minion/src/main/java/apycazo/codex/minion/context/MinionContext.java:163-189 | The precedence is `@PropertyValue`, then field `@Prototype` or type `@Prototype`, then catalog lookup. The property route is `ResolveProperty`. The lookup route is `Lookup` and does not change the state. The prototype route yields a fresh object of the field's type; `PrototypeRoute` ties it to `ProtoF`. |
| Injection.PrototypeRoute | codex-minion/src/main/java/apycazo/codex/minion/context/MinionContext.java:167-172 | With fuel left, the prototype route is `prototype` of the field's type: the same state, success exactly when `ProtoF` succeeds, then a reference to its object, otherwise its failure. |
| Injection.WiringTargets | codex-minion/src/main/java/apycazo/codex/minion/context/MinionContext.java:155 | Every selected field is `@Inject` or `@PropertyValue`, and none is added. |
| Injection.WiringTargetsSelect | codex-minion/src/main/java/apycazo/codex/minion/context/MinionContext.java:155 | `resolveInjections` selects exactly the `@Inject` or `@PropertyValue` fields. |
| Catalog.FetchCandidates | codex-minion/src/main/java/apycazo/codex/minion/context/MinionContext.java:179 | Every candidate is a record matching the requested type and qualifier, and there are no more candidates than records. |
| Catalog.CandidatesAreMatches | codex-minion/src/main/java/apycazo/codex/minion/context/MinionContext.java:179 | The candidates are exactly the registered records whose type is assignable to the requested one and whose name matches the qualifier, if one is given. |
| Catalog.NoCandidate | codex-minion/src/main/java/apycazo/codex/minion/context/MinionContext.java:180-182 | There are no candidates exactly when no record matches. |
| Catalog.OneCandidate | codex-minion/src/main/java/apycazo/codex/minion/context/MinionContext.java:183-184 | One candidate means exactly one record matches, and the candidate is that record. |
| Catalog.SeveralMatchSeveralCandidates | codex-minion/src/main/java/apycazo/codex/minion/context/MinionContext.java:185-187 | Two matching records give at least two candidates. |
| Catalog.SeveralCandidatesSeveralMatch | codex-minion/src/main/java/apycazo/codex/minion/context/MinionContext.java:185-187 | At least two candidates means two distinct records match. |
| Catalog.LookupCharacterised | codex-minion/src/main/java/apycazo/codex/minion/context/MinionContext.java:179-188 | The lookup fails `UNABLE_TO_INJECT_NAMED` exactly when nothing matches, and `MULTIPLE_DEFINITIONS` exactly when two records match. A success is the instance of the only matching record. |
| Catalog.Lookup | codex-minion/src/main/java/apycazo/codex/minion/context/MinionContext.java:179-188 | A failure is `UNABLE_TO_INJECT_NAMED` or `MULTIPLE_DEFINITIONS`. A success is the instance of a registered record that matches the requested type and qualifier. |
| Catalog.QualifierBreaksTie | codex-minion/src/main/java/apycazo/codex/minion/context/MinionContext.java:175-187 | Two beans of one type are ambiguous without `@Named`, and a `@Named` qualifier picks one. |
| Context.Container.BeanProviders | codex-minion/src/main/java/apycazo/codex/minion/context/MinionContext.java:107-138 | The loop over provider classes leaves exactly the state and outcome of `ProvidersF`. |
| Bootstrap.ProvidersF | codex-minion/src/main/java/apycazo/codex/minion/context/MinionContext.java:107-138 | The phase keeps the state valid, only appends to the catalog and leaves every existing object unchanged. |
| Bootstrap.ProvidersFailure | codex-minion/src/main/java/apycazo/codex/minion/context/MinionContext.java:108-137 | A failure of the phase is exactly the outcome of `ProviderF` on the first failing class, run on the state the earlier classes left, all of which succeeded. |
| Bootstrap.ProvidersRegister | codex-minion/src/main/java/apycazo/codex/minion/context/MinionContext.java:107-138 | After a successful `beanProviders`, the appended records are exactly one per `@Singleton` method of the providers, in order. |
| Context.Container.ProviderBeans | codex-minion/src/main/java/apycazo/codex/minion/context/MinionContext.java:109-136 | One provider class leaves exactly the state and outcome of `ProviderF`. |
| Bootstrap.ProviderF | codex-minion/src/main/java/apycazo/codex/minion/context/MinionContext.java:109-136 | A scope-marked field fails `BEAN_PROVIDER_INJECTIONS` before anything is instantiated, with the state unchanged. Otherwise a failed instantiation is the outcome, and after a successful one the outcome is that of the provider methods. The catalog is only appended to. |
| Bootstrap.ProviderFailure | codex-minion/src/main/java/apycazo/codex/minion/context/MinionContext.java:109-136 | A provider class fails for one cause: `BEAN_PROVIDER_INJECTIONS` for a scope-marked field, else `BEAN_IS_INTERFACE` or `BEAN_INSTANCE_FAILED` from instantiation, else the code of its first refused `@Singleton` method. |
| Bootstrap.ProviderRegisters | codex-minion/src/main/java/apycazo/codex/minion/context/MinionContext.java:109-136 | Under the corrected `void` guard, a provider class succeeds exactly when it has no scope-marked field, can be instantiated, and every `@Singleton` method is acceptable. On success one record is appended per `@Singleton` method, in order. |
| Context.Container.InvokeProviderMethods | codex-minion/src/main/java/apycazo/codex/minion/context/MinionContext.java:115-135 | The loop over a provider's methods, with the corrected `void` guard, leaves exactly the state and outcome of `ProviderMethodsF`. |
| Context.Container.Register | codex-minion/src/main/java/apycazo/codex/minion/context/MinionContext.java:125-126 | Registers a fresh object of the returned class under the method's name. Nothing else changes. |
| Bootstrap.ProviderMethodsF | codex-minion/src/main/java/apycazo/codex/minion/context/MinionContext.java:115-135 | With the corrected `void` guard, the catalog is only appended to, and every failure is `OPERATION_NOT_SUPPORTED` or `INVOCATION_ERROR`. |
| Bootstrap.ProviderMethodsFailure | codex-minion/src/main/java/apycazo/codex/minion/context/MinionContext.java:115-131 | With the corrected `void` guard, a failure comes from the first `@Singleton` method that is not acceptable, every earlier one being acceptable: `OPERATION_NOT_SUPPORTED` when it has parameters or returns void, `INVOCATION_ERROR` when its call throws. |
| Bootstrap.ProviderMethodsSucceed | codex-minion/src/main/java/apycazo/codex/minion/context/MinionContext.java:115-135 | Under the corrected `void` guard, the loop succeeds exactly when every `@Singleton` method has no parameters, returns a value and does not throw. A `@Prototype` method never makes it fail. |
| Bootstrap.ProviderMethodsRecords | codex-minion/src/main/java/apycazo/codex/minion/context/MinionContext.java:115-131 | On success each `@Singleton` method has registered a new object, named after the method and typed by the returned object's class, in order. |
| Bootstrap.ProviderMethodsRegister | codex-minion/src/main/java/apycazo/codex/minion/context/MinionContext.java:115-135 | The success condition under the corrected `void` guard, and the registered records above, together. |
| Bootstrap.SingletonMethods | codex-minion/src/main/java/apycazo/codex/minion/context/MinionContext.java:116 | Every selected method is `@Singleton`, and none is added. |
| Bootstrap.SingletonMethodsSelect | codex-minion/src/main/java/apycazo/codex/minion/context/MinionContext.java:116 | Selects exactly the `@Singleton` methods. |
| Bootstrap.ShapeCheck | codex-minion/src/main/java/apycazo/codex/minion/context/MinionContext.java:117-122 | A provider method passes exactly when it has no parameters and returns a value. A failure is `OPERATION_NOT_SUPPORTED`. |
| Bootstrap.ShapeCheckAsWritten | codex-minion/src/main/java/apycazo/codex/minion/context/MinionContext.java:117-122 | The guard as written refuses exactly the methods with parameters or a declared `java.lang.Void` result. |
| Bootstrap.VoidMethodPassesAsWritten | codex-minion/src/main/java/apycazo/codex/minion/context/MinionContext.java:120 | A zero-parameter provider method declared `void` passes the guard as written but fails the intended one. |
| Context.Container.Singletons | codex-minion/src/main/java/apycazo/codex/minion/context/MinionContext.java:140-148 | The loop over scanned classes leaves exactly the state and outcome of `SingletonsF`. |
| Context.Container.Singleton | codex-minion/src/main/java/apycazo/codex/minion/context/MinionContext.java:141-146 | One class leaves exactly the state and outcome of `SingletonF`. |
| Context.Container.Enlist | codex-minion/src/main/java/apycazo/codex/minion/context/MinionContext.java:146 | `catalog.register` appends the record and changes nothing else. |
| Bootstrap.SingletonF | codex-minion/src/main/java/apycazo/codex/minion/context/MinionContext.java:141-146 | An interface fails `BEAN_IS_INTERFACE`; a class whose constructor fails fails `BEAN_INSTANCE_FAILED`; a failure leaves the state unchanged. The catalog is only appended to. |
| Bootstrap.SingletonsF | codex-minion/src/main/java/apycazo/codex/minion/context/MinionContext.java:140-148 | Every failure is `BEAN_IS_INTERFACE` or `BEAN_INSTANCE_FAILED`. The catalog is only appended to. `SingletonsSucceed` and `SingletonsFailure` give when it succeeds and which class a failure comes from. |
| Bootstrap.SingletonsFailure | codex-minion/src/main/java/apycazo/codex/minion/context/MinionContext.java:140-148 | A failure of `singletons` is exactly `SingletonF` on the first failing class, run on the state the classes before it left, all of which were registered. |
| Bootstrap.SingletonsSucceed | codex-minion/src/main/java/apycazo/codex/minion/context/MinionContext.java:140-148 | The phase succeeds exactly when every class can be instantiated. |
| Bootstrap.SingletonsRegister | codex-minion/src/main/java/apycazo/codex/minion/context/MinionContext.java:140-148 | On success one record per class is appended, in list order, typed by the class and named by `@Named` or else by the class name. |
| Bootstrap.BeanName | codex-minion/src/main/java/apycazo/codex/minion/context/MinionContext.java:143-145 | A singleton is named by its `@Named` value, or else by its class name. |
| Context.Container.ResolveInjections | codex-minion/src/main/java/apycazo/codex/minion/context/MinionContext.java:150-158 | The loop over catalog records leaves exactly the state and outcome of `InjectionsF`. |
| Bootstrap.InjectionsF | codex-minion/src/main/java/apycazo/codex/minion/context/MinionContext.java:150-158 | Injection keeps the catalog and every object, and lets only `Generic`/`Exhausted` escape. `InjectionsSucceed` and `InjectionsFailure` give when it succeeds and which bean a failure comes from. |
| Bootstrap.InjectionsFailure | codex-minion/src/main/java/apycazo/codex/minion/context/MinionContext.java:150-158 | A failure of `resolveInjections` is exactly the wiring of the first bean whose wiring fails, run on the state the beans before it left, all of which were wired. |
| Bootstrap.InjectionsSucceed | codex-minion/src/main/java/apycazo/codex/minion/context/MinionContext.java:150-158 | `resolveInjections` succeeds exactly when every bean's wiring succeeds on the state the beans before it left. |
| Bootstrap.InjectionsKeep | codex-minion/src/main/java/apycazo/codex/minion/context/MinionContext.java:150-158 | Every object keeps its class, and every object outside the records is unchanged. |
| Bootstrap.InjectionsWiredFirst | codex-minion/src/main/java/apycazo/codex/minion/context/MinionContext.java:152-157 | The first bean's wired fields still hold what their routes prescribe after the later beans are wired. A prototype-routed field holds an object of the field's type that no catalog record holds. |
| Bootstrap.InjectionsWired | codex-minion/src/main/java/apycazo/codex/minion/context/MinionContext.java:150-158 | After a successful injection phase, every wired field of every record holds what its route prescribes, including fields wired before later beans. A prototype-routed field holds an object of the field's type that no catalog record holds. |
| Bootstrap.Instances | codex-minion/src/main/java/apycazo/codex/minion/context/MinionContext.java:63 | `records().map(getInstance)`: one instance per record, in catalog order. |
| Context.Container.InitBeans | codex-minion/src/main/java/apycazo/codex/minion/context/MinionContext.java:63 | Appends to the hook log exactly the calls of `InitF` over the catalog's instances, and returns its outcome. |
| Context.Container.Init | codex-minion/src/main/java/apycazo/codex/minion/context/MinionContext.java:215-231 | Appends to the hook log exactly the calls of `RunHooks` on the bean's hooks, and returns its outcome. |
| Context.Container.InvokeHooks | codex-minion/src/main/java/apycazo/codex/minion/context/MinionContext.java:216-230 | The `forEach` over the filtered hooks appends exactly the calls `RunHooks` makes and returns its outcome. |
| Context.Container.Invoke | codex-minion/src/main/java/apycazo/codex/minion/context/MinionContext.java:223-228 | An invocation is logged, and it returns exactly when the hook does not throw. |
| Lifecycle.RunHooks | codex-minion/src/main/java/apycazo/codex/minion/context/MinionContext.java:220-230 | A failed run fails with `BEAN_INIT_FAILED`. |
| Lifecycle.InitF | codex-minion/src/main/java/apycazo/codex/minion/context/MinionContext.java:63 | Initialising the beans fails only with `BEAN_INIT_FAILED`. |
| Lifecycle.HookCalls | codex-minion/src/main/java/apycazo/codex/minion/context/MinionContext.java:216-219 | Every selected call is on the bean and is a `@PostConstruct` method without parameters. |
| Lifecycle.HookCallsSelect | codex-minion/src/main/java/apycazo/codex/minion/context/MinionContext.java:216-219 | The calls are exactly the bean's zero-parameter `@PostConstruct` methods. |
| Lifecycle.RunHooksPrefix | codex-minion/src/main/java/apycazo/codex/minion/context/MinionContext.java:220-230 | The calls made are a prefix of the hooks. The run succeeds exactly when no hook throws, and then makes them all. |
| Lifecycle.RunHooksFailure | codex-minion/src/main/java/apycazo/codex/minion/context/MinionContext.java:220-230 | A failed run ends with `BEAN_INIT_FAILED` right after the first throwing hook. Every earlier hook returned. |
| Lifecycle.RunHooksStops | codex-minion/src/main/java/apycazo/codex/minion/context/MinionContext.java:220-230 | Both of the above together. |
| Lifecycle.RunHooksAppend | codex-minion/src/main/java/apycazo/codex/minion/context/MinionContext.java:220-230 | Running two hook lists in turn is running their concatenation, and a failure in the first skips the second. |
| Lifecycle.InitFlat | codex-minion/src/main/java/apycazo/codex/minion/context/MinionContext.java:63 | Initialising bean by bean is one run over all hooks, so the first failure stops every later hook of the same bean and of later beans. |

## Left out

- Package scanning with ClassGraph, `scanForAnnotation`, `resolveClass` and `CLASSNAME_NOT_FOUND` are external library and class loader work. The provider and singleton class lists are inputs to `Start`.
- Reading property files and `System.getProperty` are I/O and process state. Each source is an input `Option<Table>`, where `None` means unreadable, and the system properties are an input table.
- The property sources are a Java `Set`, whose iteration order is not specified. The model takes them as a sequence in the order the set yields them.
- Whatever the `Catalog` constructor does with the context passed to it is not modelled. The catalog starts empty.
- Integer and boolean parsing are abstract functions `readInt`/`readBool` passed to the container. `CommonUtils` is not part of this model, so integer width is not modelled.
- The `Catalog` class is not part of this model. Its records are a sequence of `(instance, name, type)`. `fetchCandidates` is a filter by the `Assignable` relation and an optional name. `register` is taken to append and never to refuse a record.
- Assignability is the `supertypes` set of each class descriptor. Java's subtyping rules are not modelled.
- A class outside the descriptor map is treated as a plain constructible class with no container annotations.
- The class-level markers `@Singleton` and `@BeanProvider` are not part of the descriptors. Discovery is scanning, and its results are the input lists.
- Reflection accessibility (`setAccessible`, `canAccess` and restoring it) and `field.set` type mismatches (`IllegalArgumentException`) are not modelled. Setting a field always succeeds.
- Logging, including the warnings for a repeated `start` and for `@Prototype` provider methods, is left out. Thread safety is also left out, because the source has none.
- A provider method's result is modelled as a fresh object of the returned class. A method that returns `null`, or returns an object that is already registered, is not modelled.
- ProviderMethodsF (`Bootstrap.ProviderMethodsF`) applies the corrected guard `ShapeCheck` from the finding below, not the guard as written at line 120. A zero-parameter `@Singleton` method declared primitive `void` is refused with `OPERATION_NOT_SUPPORTED`. The code as written instead invokes it and passes its `null` result to `catalog.register`. The guard as written is `ShapeCheckAsWritten`; the null registration it leads to is not modelled.
- InvokeProviderMethods (`Context.Container.InvokeProviderMethods`) runs the same corrected guard `ShapeCheck` in its loop, so it too refuses a zero-parameter `@Singleton` method declared primitive `void`, which the code as written invokes and registers as `null`.
- ProviderMethodsFailure (`Bootstrap.ProviderMethodsFailure`) attributes failures under the corrected guard: a primitive-`void` method counts as refused with `OPERATION_NOT_SUPPORTED`, where the code as written would register `null` and go on.
- ProviderFailure (`Bootstrap.ProviderFailure`) inherits the same substitution through `ProviderMethodsFailure`.
- ProviderMethodsSucceed (`Bootstrap.ProviderMethodsSucceed`): its success condition is the one under the corrected guard. A `void` method makes the phase fail, whereas the code as written would go on.
- ProviderMethodsRegister (`Bootstrap.ProviderMethodsRegister`): it carries the same success condition, under the corrected guard.
- ProviderRegisters (`Bootstrap.ProviderRegisters`): its success condition for a provider class likewise uses the corrected guard.
- Java's `getDeclaredFields` and `getDeclaredMethods` return members in no specified order. The model takes a class's fields and methods as sequences in the order reflection returns them, and wires fields, invokes provider methods and runs hooks in that order.
- `Lifecycle.Hooks`: it is total. An id the heap does not hold has no hooks, whereas `init` on such an object is impossible in Java. A valid state never registers such an id, so `Context.Container.Init` needs no precondition.
- Fields set by a bean's constructor or field initialisers are not modelled. An object's field map holds only the values the container writes, so "not set" in the rows above means not set by the container.
- Hook methods are modelled by their outcome only. A hook that changes fields, or calls back into the container, is not modelled.
- `Context.Container.Prototype`: the recursion between `prototype` and `injectDependency` has no cycle check. The model bounds it by `fuel` and reports `Exhausted` in place of the stack overflow the running program would hit. The depth at which the real stack overflows is not modelled.
- `Bootstrap.StartWires`: it needs `WellFormed` (field names unique within a class) so that a field wired early is not overwritten by a later field of the same name. Java fields of one class always have distinct names.
- A field marked both `@Inject` and `@PropertyValue` on a prototype is resolved as a property, because `injectDependency` checks `@PropertyValue` first.

## Findings

| source | as written | input that shows it | evidently intended | confidence | as-written member | corrected member |
|---|---|---|---|---|---|---|
| codex-minion/src/main/java/apycazo/codex/minion/context/MinionContext.java:120 | The provider-method guard compares the declared return type's name with `Void.class.getName()`, which is `"java.lang.Void"`. | A zero-parameter `@Singleton` method declared `void`: its return type's name is `"void"`, so it passes the guard and is invoked. | A method that returns nothing is refused with `OPERATION_NOT_SUPPORTED`, as the log message "can not return void" says. | not executed | Bootstrap.ShapeCheckAsWritten, Bootstrap.VoidMethodPassesAsWritten | Bootstrap.ShapeCheck |

=== FILE: bootstrap.dfy ===
/** The phases of `start` as functions of the container state: provider
    beans, scanned singletons, injection over the whole catalog, and the
    `@PostConstruct` hooks; and `start` itself as their composition. */
module Bootstrap {
  import opened Wrappers
  import opened Descriptors
  import opened Properties
  import opened Catalog
  import opened Injection
  import opened Lifecycle

  // ---------------------------------------------------------------------
  // Provider beans

  const JavaVoidClass := "java.lang.Void"
  const JavaVoid := "void"

  /** The return-type guard of a provider method as written: it compares the
      declared return type's name with that of the boxed class `Void`. */
  function ShapeCheckAsWritten(m: MethodDesc): (r: Option<StatusCode>)
    ensures r.Some? <==> m.paramCount != 0 || m.returnType == JavaVoidClass
  {
    if m.paramCount != 0 then Some(OperationNotSupported)
    else if m.returnType == JavaVoidClass then Some(OperationNotSupported)
    else None
  }

  /** A method whose declared result is nothing: the primitive `void` (whose
      class name is "void") or the boxed `Void`. */
  predicate ReturnsVoid(m: MethodDesc)
  {
    m.returnType == JavaVoid || m.returnType == JavaVoidClass
  }

  /** The guard as intended: a provider method needs no parameters and must
      return a value. */
  function ShapeCheck(m: MethodDesc): (r: Option<StatusCode>)
    ensures r.None? <==> m.paramCount == 0 && !ReturnsVoid(m)
    ensures r.Some? ==> r.value == OperationNotSupported
  {
    if m.paramCount != 0 || ReturnsVoid(m) then Some(OperationNotSupported) else None
  }

  /** A provider method declared `void` passes the guard as written, though
      the guard exists to refuse methods that return nothing. */
  lemma VoidMethodPassesAsWritten()
    ensures var m := MethodDesc("widget", true, false, false, 0, JavaVoid, Returns("java.lang.Object"));
      ShapeCheckAsWritten(m) == None && ShapeCheck(m) == Some(OperationNotSupported)
  {
  }

  /** A `@Singleton` provider method that registers a bean. */
  predicate Acceptable(m: MethodDesc)
  {
    ShapeCheck(m).None? && m.outcome.Returns?
  }

  function SingletonMethods(ms: seq<MethodDesc>): (r: seq<MethodDesc>)
    ensures |r| <= |ms| && forall i :: 0 <= i < |r| ==> r[i].singleton
  {
    if ms == [] then []
    else if ms[0].singleton then [ms[0]] + SingletonMethods(ms[1..])
    else SingletonMethods(ms[1..])
  }

  /** The provider methods that register a bean are exactly the `@Singleton`
      ones. */
  lemma {:induction false} SingletonMethodsSelect(ms: seq<MethodDesc>)
    ensures forall m :: m in SingletonMethods(ms) <==> m in ms && m.singleton
  {
    if ms != [] {
      SingletonMethodsSelect(ms[1..]);
      assert forall m :: m in ms <==> m == ms[0] || m in ms[1..];
    }
  }

  /** The records `added` are one per method of `ms`, in order, named after
      the method and typed by the class of the object it returned, each a
      fresh object at or above id `from`. */
  ghost predicate RecordsFor(added: seq<BeanRecord>, ms: seq<MethodDesc>, heap: map<nat, Obj>, from: nat)
  {
    && |added| == |ms|
    && forall i :: 0 <= i < |ms| ==>
         && ms[i].outcome.Returns?
         && added[i].name == ms[i].name
         && added[i].typeName == ms[i].outcome.runtimeClass
         && added[i].instance in heap && from <= added[i].instance
  }

  /** `st'` holds the catalog of `st` followed by more records, keeps every
      object of `st`, and only adds fresh ids. */
  ghost predicate Appends(st: State, st': State)
  {
    && |st.catalog| <= |st'.catalog| && st'.catalog[..|st.catalog|] == st.catalog
    && st.nextId <= st'.nextId
    && KeepsExcept(st, st', -1)
  }

  lemma AppendsTrans(a: State, b: State, c: State)
    requires Appends(a, b) && Appends(b, c)
    ensures Appends(a, c)
  {
    assert c.catalog[..|a.catalog|] == c.catalog[..|b.catalog|][..|a.catalog|];
  }

  /** Every `@Singleton` method among `ms` is acceptable. */
  ghost predicate AllAcceptable(ms: seq<MethodDesc>)
  {
    forall i :: 0 <= i < |ms| && ms[i].singleton ==> Acceptable(ms[i])
  }

  /** What two successive appends added, taken together. */
  lemma CatalogJoin(a: seq<BeanRecord>, b: seq<BeanRecord>, c: seq<BeanRecord>)
    requires |a| <= |b| <= |c| && b[..|a|] == a && c[..|b|] == b
    ensures c[|a|..] == b[|a|..] + c[|b|..]
  {
    assert forall i :: |a| <= i < |b| ==> c[i] == c[..|b|][i];
  }

  /** Invokes the methods of a provider instance in the order reflection
      returns them. */
  function ProviderMethodsF(st: State, ms: seq<MethodDesc>): (r: Step<()>)
    requires Valid(st)
    ensures Valid(r.st) && Appends(st, r.st)
    ensures r.res.Failure? ==>
      r.res.error == Coded(OperationNotSupported) || r.res.error == Coded(InvocationError)
    decreases |ms|
  {
    if ms == [] then Step(Success(()), st)
    else
      var m := ms[0];
      if !m.singleton then ProviderMethodsF(st, ms[1..])
      else if ShapeCheck(m).Some? then Step(Failure(Coded(ShapeCheck(m).value)), st)
      else match m.outcome
        case Throws => Step(Failure(Coded(InvocationError)), st)
        case Returns(cls) =>
          var bean := Alloc(st, cls);
          var st1 := bean.(catalog := bean.catalog + [BeanRecord(st.nextId, m.name, cls)]);
          ProviderMethodsF(st1, ms[1..])
  }

  /** The provider methods succeed exactly when every `@Singleton` one is
      acceptable. */
  lemma {:induction false} ProviderMethodsSucceed(st: State, ms: seq<MethodDesc>)
    requires Valid(st)
    ensures ProviderMethodsF(st, ms).res.Success? <==> AllAcceptable(ms)
    decreases |ms|
  {
    if ms != [] {
      var m := ms[0];
      var rest := ms[1..];
      assert forall i :: 1 <= i < |ms| ==> ms[i] == rest[i - 1];
      if !m.singleton {
        ProviderMethodsSucceed(st, rest);
      } else if Acceptable(m) {
        var bean := Alloc(st, m.outcome.runtimeClass);
        ProviderMethodsSucceed(bean.(catalog := bean.catalog + [BeanRecord(st.nextId, m.name, m.outcome.runtimeClass)]), rest);
      }
    }
  }

  /** One more record in front, for one more method in front. */
  lemma RecordsForCons(rec: BeanRecord, tail: seq<BeanRecord>, m: MethodDesc, ms: seq<MethodDesc>,
                       heap: map<nat, Obj>, from: nat, from': nat)
    requires m.outcome.Returns? && rec.name == m.name && rec.typeName == m.outcome.runtimeClass
    requires rec.instance in heap && from <= rec.instance
    requires from <= from' && RecordsFor(tail, ms, heap, from')
    ensures RecordsFor([rec] + tail, [m] + ms, heap, from)
  {
    forall i | 1 <= i < |ms| + 1
      ensures ([rec] + tail)[i] == tail[i - 1] && ([m] + ms)[i] == ms[i - 1]
    {
    }
  }

  /** Successful provider methods have appended one record per `@Singleton`
      method, in order, each a fresh object. */
  lemma {:induction false} ProviderMethodsRecords(st: State, ms: seq<MethodDesc>)
    requires Valid(st) && ProviderMethodsF(st, ms).res.Success?
    ensures var r := ProviderMethodsF(st, ms);
      RecordsFor(r.st.catalog[|st.catalog|..], SingletonMethods(ms), r.st.heap, st.nextId)
    decreases |ms|
  {
    var r := ProviderMethodsF(st, ms);
    if ms == [] {
      assert r.st.catalog[|st.catalog|..] == [];
    } else {
      var m := ms[0];
      var rest := ms[1..];
      if !m.singleton {
        ProviderMethodsRecords(st, rest);
      } else {
        var cls := m.outcome.runtimeClass;
        var bean := Alloc(st, cls);
        var rec := BeanRecord(st.nextId, m.name, cls);
        var st1 := bean.(catalog := bean.catalog + [rec]);
        ProviderMethodsRecords(st1, rest);
        assert r == ProviderMethodsF(st1, rest);
        CatalogJoin(st.catalog, st1.catalog, r.st.catalog);
        assert st1.catalog[|st.catalog|..] == [rec];
        RecordsForCons(rec, r.st.catalog[|st1.catalog|..], m, SingletonMethods(rest), r.st.heap, st.nextId, st1.nextId);
      }
    }
  }

  /** The provider methods succeed exactly when every `@Singleton` one is
      acceptable, and then they have appended one record per `@Singleton`
      method, in order, each a fresh object. */
  lemma {:induction false} ProviderMethodsRegister(st: State, ms: seq<MethodDesc>)
    requires Valid(st)
    ensures var r := ProviderMethodsF(st, ms);
      && (r.res.Success? <==> AllAcceptable(ms))
      && (r.res.Success? ==> RecordsFor(r.st.catalog[|st.catalog|..], SingletonMethods(ms), r.st.heap, st.nextId))
  {
    ProviderMethodsSucceed(st, ms);
    if ProviderMethodsF(st, ms).res.Success? {
      ProviderMethodsRecords(st, ms);
    }
  }

  /** `k` is the first `@Singleton` method of `ms` that is not acceptable. */
  ghost predicate FirstRefused(ms: seq<MethodDesc>, k: int)
  {
    && 0 <= k < |ms| && ms[k].singleton && !Acceptable(ms[k])
    && forall j :: 0 <= j < k && ms[j].singleton ==> Acceptable(ms[j])
  }

  /** A failure of the provider methods comes from the first `@Singleton`
      method that is not acceptable: `OPERATION_NOT_SUPPORTED` when the guard
      refuses its shape, `INVOCATION_ERROR` when the call throws. */
  lemma {:induction false} ProviderMethodsFailure(st: State, ms: seq<MethodDesc>)
    requires Valid(st) && ProviderMethodsF(st, ms).res.Failure?
    ensures exists k ::
      && FirstRefused(ms, k)
      && ProviderMethodsF(st, ms).res.error ==
           Coded(if ShapeCheck(ms[k]).Some? then OperationNotSupported else InvocationError)
    decreases |ms|
  {
    var m := ms[0];
    var rest := ms[1..];
    assert forall i :: 1 <= i < |ms| ==> ms[i] == rest[i - 1];
    if m.singleton && !Acceptable(m) {
      assert FirstRefused(ms, 0);
    } else {
      var st1 := if !m.singleton then st else
        var bean := Alloc(st, m.outcome.runtimeClass);
        bean.(catalog := bean.catalog + [BeanRecord(st.nextId, m.name, m.outcome.runtimeClass)]);
      assert ProviderMethodsF(st, ms) == ProviderMethodsF(st1, rest);
      ProviderMethodsFailure(st1, rest);
      var k :| FirstRefused(rest, k) && ProviderMethodsF(st1, rest).res.error ==
        Coded(if ShapeCheck(rest[k]).Some? then OperationNotSupported else InvocationError);
      assert FirstRefused(ms, k + 1);
    }
  }

  predicate HasScopedField(fs: seq<FieldDesc>)
  {
    exists f :: f in fs && (f.singleton || f.prototype)
  }

  /** One provider class: refused if a field is scope-marked, otherwise
      instantiated once and its `@Singleton` methods invoked. */
  function ProviderF(u: Universe, st: State, cls: string): (r: Step<()>)
    requires Valid(st)
    ensures Valid(r.st) && Appends(st, r.st)
    ensures HasScopedField(Describe(u, cls).fields) ==> r == Step(Failure(Coded(BeanProviderInjections)), st)
    ensures !HasScopedField(Describe(u, cls).fields) ==>
      && (InstanceF(u, st, cls).res.Failure? ==> r.res == Failure(InstanceF(u, st, cls).res.error))
      && (InstanceF(u, st, cls).res.Success? ==>
            r.res == ProviderMethodsF(InstanceF(u, st, cls).st, Describe(u, cls).methods).res)
  {
    var d := Describe(u, cls);
    if HasScopedField(d.fields) then Step(Failure(Coded(BeanProviderInjections)), st)
    else
      var made := InstanceF(u, st, cls);
      if made.res.Failure? then Step(Failure(made.res.error), made.st)
      else ProviderMethodsF(made.st, d.methods)
  }

  /** A provider class succeeds exactly when it has no scope-marked field,
      can be instantiated and has only acceptable `@Singleton` methods; then
      it has appended one record per `@Singleton` method. */
  lemma ProviderRegisters(u: Universe, st: State, cls: string)
    requires Valid(st)
    ensures var r := ProviderF(u, st, cls);
      var d := Describe(u, cls);
      && (r.res.Success? <==> !HasScopedField(d.fields) && Instantiable(u, cls) && AllAcceptable(d.methods))
      && (r.res.Success? ==> RecordsFor(r.st.catalog[|st.catalog|..], SingletonMethods(d.methods), r.st.heap, st.nextId))
  {
    var d := Describe(u, cls);
    if !HasScopedField(d.fields) {
      var made := InstanceF(u, st, cls);
      if made.res.Success? {
        ProviderMethodsRegister(made.st, d.methods);
      }
    }
  }

  /** A provider class fails for exactly one cause: `BEAN_PROVIDER_INJECTIONS`
      for a scope-marked field; otherwise the failure of its instantiation
      (`BEAN_IS_INTERFACE` or `BEAN_INSTANCE_FAILED`); otherwise the failure
      of its first refused `@Singleton` method. */
  lemma ProviderFailure(u: Universe, st: State, cls: string)
    requires Valid(st) && ProviderF(u, st, cls).res.Failure?
    ensures var r := ProviderF(u, st, cls);
      var d := Describe(u, cls);
      && (HasScopedField(d.fields) ==> r.res.error == Coded(BeanProviderInjections))
      && (!HasScopedField(d.fields) && d.isInterface ==> r.res.error == Coded(BeanIsInterface))
      && (!HasScopedField(d.fields) && !d.isInterface && !d.constructible ==>
            r.res.error == Coded(BeanInstanceFailed))
      && (!HasScopedField(d.fields) && Instantiable(u, cls) ==>
            exists k ::
              && FirstRefused(d.methods, k)
              && r.res.error ==
                   Coded(if ShapeCheck(d.methods[k]).Some? then OperationNotSupported else InvocationError))
  {
    var d := Describe(u, cls);
    if !HasScopedField(d.fields) && Instantiable(u, cls) {
      ProviderMethodsFailure(InstanceF(u, st, cls).st, d.methods);
    }
  }

  /** The `@Singleton` methods of the provider classes, class by class. */
  function ProvidedMethods(u: Universe, classes: seq<string>): seq<MethodDesc>
  {
    if classes == [] then [] else SingletonMethods(Describe(u, classes[0]).methods) + ProvidedMethods(u, classes[1..])
  }

  lemma RecordsForJoin(a: seq<BeanRecord>, ma: seq<MethodDesc>, b: seq<BeanRecord>, mb: seq<MethodDesc>,
                       heap: map<nat, Obj>, heap': map<nat, Obj>, from: nat, from': nat)
    requires RecordsFor(a, ma, heap, from) && RecordsFor(b, mb, heap', from')
    requires from <= from' && forall id :: id in heap ==> id in heap'
    ensures RecordsFor(a + b, ma + mb, heap', from)
  {
  }

  /** `beanProviders`: each provider class in list order, stopping at the
      first failure. */
  function ProvidersF(u: Universe, st: State, classes: seq<string>): (r: Step<()>)
    requires Valid(st)
    ensures Valid(r.st) && Appends(st, r.st)
    decreases |classes|
  {
    if classes == [] then Step(Success(()), st)
    else
      var first := ProviderF(u, st, classes[0]);
      if first.res.Failure? then first else ProvidersF(u, first.st, classes[1..])
  }

  /** Running a prefix of one more class, when the first class succeeds. */
  lemma ProvidersPrefix(u: Universe, st: State, classes: seq<string>, i: nat)
    requires Valid(st) && i < |classes| && ProviderF(u, st, classes[0]).res.Success?
    ensures ProvidersF(u, st, classes[..i + 1]) ==
      ProvidersF(u, ProviderF(u, st, classes[0]).st, classes[1..][..i])
  {
    var pre := classes[..i + 1];
    assert pre[0] == classes[0] && pre[1..] == classes[1..][..i];
  }

  /** A failure of `beanProviders` is the failure of the first provider
      class that fails, run on the state the classes before it left. */
  lemma {:induction false} ProvidersFailure(u: Universe, st: State, classes: seq<string>)
    requires Valid(st) && ProvidersF(u, st, classes).res.Failure?
    ensures exists i ::
      && 0 <= i < |classes|
      && ProvidersF(u, st, classes[..i]).res.Success?
      && ProvidersF(u, st, classes) == ProviderF(u, ProvidersF(u, st, classes[..i]).st, classes[i])
    decreases |classes|
  {
    var first := ProviderF(u, st, classes[0]);
    if first.res.Failure? {
      assert classes[..0] == [];
      assert ProvidersF(u, st, classes[..0]) == Step(Success(()), st);
      assert ProvidersF(u, st, classes) == ProviderF(u, st, classes[0]);
    } else {
      var rest := classes[1..];
      assert ProvidersF(u, st, classes) == ProvidersF(u, first.st, rest);
      ProvidersFailure(u, first.st, rest);
      var i :| && 0 <= i < |rest|
               && ProvidersF(u, first.st, rest[..i]).res.Success?
               && ProvidersF(u, first.st, rest) == ProviderF(u, ProvidersF(u, first.st, rest[..i]).st, rest[i]);
      ProvidersPrefix(u, st, classes, i);
      assert classes[i + 1] == rest[i];
    }
  }

  /** On success `beanProviders` has appended exactly one record per
      `@Singleton` provider method, in order, and nothing else. */
  lemma {:induction false} ProvidersRegister(u: Universe, st: State, classes: seq<string>)
    requires Valid(st) && ProvidersF(u, st, classes).res.Success?
    ensures var r := ProvidersF(u, st, classes);
      RecordsFor(r.st.catalog[|st.catalog|..], ProvidedMethods(u, classes), r.st.heap, st.nextId)
    decreases |classes|
  {
    if classes != [] {
      var first := ProviderF(u, st, classes[0]);
      var r := ProvidersF(u, first.st, classes[1..]);
      ProviderRegisters(u, st, classes[0]);
      ProvidersRegister(u, first.st, classes[1..]);
      CatalogJoin(st.catalog, first.st.catalog, r.st.catalog);
      RecordsForJoin(first.st.catalog[|st.catalog|..], SingletonMethods(Describe(u, classes[0]).methods),
                     r.st.catalog[|first.st.catalog|..], ProvidedMethods(u, classes[1..]),
                     first.st.heap, r.st.heap, st.nextId, first.st.nextId);
    }
  }

  // ---------------------------------------------------------------------
  // Scanned singletons

  /** The registration name of a scanned singleton: its `@Named` value, or
      else its class name. */
  function BeanName(u: Universe, cls: string): (r: string)
    ensures Describe(u, cls).named.Some? ==> r == Describe(u, cls).named.value
    ensures Describe(u, cls).named.None? ==> r == cls
  {
    match Describe(u, cls).named
    case Some(n) => n
    case None => cls
  }

  predicate Instantiable(u: Universe, cls: string)
  {
    !Describe(u, cls).isInterface && Describe(u, cls).constructible
  }

  /** One class of `singletons`: instantiate it and register the object
      under its bean name. */
  function SingletonF(u: Universe, st: State, cls: string): (r: Step<()>)
    requires Valid(st)
    ensures Valid(r.st) && Appends(st, r.st)
    ensures r.res.Failure? ==>
      r.st == st && (r.res.error == Coded(BeanIsInterface) || r.res.error == Coded(BeanInstanceFailed))
    ensures Describe(u, cls).isInterface ==> r.res == Failure(Coded(BeanIsInterface))
    ensures !Describe(u, cls).isInterface && !Describe(u, cls).constructible ==>
      r.res == Failure(Coded(BeanInstanceFailed))
  {
    var made := InstanceF(u, st, cls);
    if made.res.Failure? then Step(Failure(made.res.error), made.st)
    else Step(Success(()), made.st.(catalog := made.st.catalog + [BeanRecord(made.res.value, BeanName(u, cls), cls)]))
  }

  /** `singletons`: instantiate and register each class in list order,
      stopping at the first failure. */
  function SingletonsF(u: Universe, st: State, classes: seq<string>): (r: Step<()>)
    requires Valid(st)
    ensures Valid(r.st) && Appends(st, r.st)
    ensures r.res.Failure? ==>
      r.res.error == Coded(BeanIsInterface) || r.res.error == Coded(BeanInstanceFailed)
    decreases |classes|
  {
    if classes == [] then Step(Success(()), st)
    else
      var one := SingletonF(u, st, classes[0]);
      if one.res.Failure? then one
      else
        var rest := SingletonsF(u, one.st, classes[1..]);
        AppendsTrans(st, one.st, rest.st);
        rest
  }

  /** Registering the classes from position `i` on: the class at `i`,
      then, if it was registered, the rest. */
  lemma SingletonsStep(u: Universe, st: State, classes: seq<string>, i: nat)
    requires Valid(st) && i < |classes|
    ensures var one := SingletonF(u, st, classes[i]);
      SingletonsF(u, st, classes[i..]) == if one.res.Failure? then one else SingletonsF(u, one.st, classes[i + 1..])
  {
    assert classes[i..][0] == classes[i] && classes[i..][1..] == classes[i + 1..];
  }

  /** The records `added` are one per class of `classes`, in order, named by
      `BeanName` and typed by the class, each a fresh object. */
  ghost predicate SingletonRecords(u: Universe, added: seq<BeanRecord>, classes: seq<string>, from: nat)
  {
    && |added| == |classes|
    && forall i :: 0 <= i < |classes| ==>
         && added[i].name == BeanName(u, classes[i])
         && added[i].typeName == classes[i]
         && from <= added[i].instance
  }

  lemma SingletonRecordsCons(u: Universe, rec: BeanRecord, tail: seq<BeanRecord>, classes: seq<string>,
                             from: nat, from': nat)
    requires classes != [] && rec.name == BeanName(u, classes[0]) && rec.typeName == classes[0]
    requires from <= rec.instance && from <= from' && SingletonRecords(u, tail, classes[1..], from')
    ensures SingletonRecords(u, [rec] + tail, classes, from)
  {
    forall i | 1 <= i < |classes|
      ensures ([rec] + tail)[i] == tail[i - 1] && classes[i] == classes[1..][i - 1]
    {
    }
  }

  /** `singletons` succeeds exactly when every class can be instantiated. */
  lemma {:induction false} SingletonsSucceed(u: Universe, st: State, classes: seq<string>)
    requires Valid(st)
    ensures SingletonsF(u, st, classes).res.Success? <==> forall i :: 0 <= i < |classes| ==> Instantiable(u, classes[i])
    decreases |classes|
  {
    if classes != [] {
      var one := SingletonF(u, st, classes[0]);
      if one.res.Success? {
        var rest := classes[1..];
        SingletonsSucceed(u, one.st, rest);
        assert forall i :: 1 <= i < |classes| ==> classes[i] == rest[i - 1];
      }
    }
  }

  /** Registering a prefix of one more class, when the first class is
      registered. */
  lemma SingletonsPrefix(u: Universe, st: State, classes: seq<string>, i: nat)
    requires Valid(st) && i < |classes| && SingletonF(u, st, classes[0]).res.Success?
    ensures SingletonsF(u, st, classes[..i + 1]) ==
      SingletonsF(u, SingletonF(u, st, classes[0]).st, classes[1..][..i])
  {
    var pre := classes[..i + 1];
    assert pre[0] == classes[0] && pre[1..] == classes[1..][..i];
  }

  /** A failure of `singletons` is the failure of the first class that
      cannot be instantiated, run on the state the classes before it left. */
  lemma {:induction false} SingletonsFailure(u: Universe, st: State, classes: seq<string>)
    requires Valid(st) && SingletonsF(u, st, classes).res.Failure?
    ensures exists i ::
      && 0 <= i < |classes|
      && SingletonsF(u, st, classes[..i]).res.Success?
      && SingletonsF(u, st, classes) == SingletonF(u, SingletonsF(u, st, classes[..i]).st, classes[i])
    decreases |classes|
  {
    var one := SingletonF(u, st, classes[0]);
    if one.res.Failure? {
      assert classes[..0] == [];
      assert SingletonsF(u, st, classes[..0]) == Step(Success(()), st);
    } else {
      var rest := classes[1..];
      assert SingletonsF(u, st, classes) == SingletonsF(u, one.st, rest);
      SingletonsFailure(u, one.st, rest);
      var i :| && 0 <= i < |rest|
               && SingletonsF(u, one.st, rest[..i]).res.Success?
               && SingletonsF(u, one.st, rest) == SingletonF(u, SingletonsF(u, one.st, rest[..i]).st, rest[i]);
      SingletonsPrefix(u, st, classes, i);
      assert classes[i + 1] == rest[i];
    }
  }

  /** A successful `singletons` has appended one record per class, in list
      order. */
  lemma {:induction false} SingletonsRegister(u: Universe, st: State, classes: seq<string>)
    requires Valid(st) && SingletonsF(u, st, classes).res.Success?
    ensures var r := SingletonsF(u, st, classes);
      SingletonRecords(u, r.st.catalog[|st.catalog|..], classes, st.nextId)
    decreases |classes|
  {
    if classes != [] {
      var made := InstanceF(u, st, classes[0]);
      var rest := classes[1..];
      var rec := BeanRecord(made.res.value, BeanName(u, classes[0]), classes[0]);
      var st1 := SingletonF(u, st, classes[0]).st;
      SingletonsRegister(u, st1, rest);
      var r := SingletonsF(u, st1, rest);
      CatalogJoin(st.catalog, st1.catalog, r.st.catalog);
      assert st1.catalog[|st.catalog|..] == [rec];
      SingletonRecordsCons(u, rec, r.st.catalog[|st1.catalog|..], classes, st.nextId, st1.nextId);
    } else {
      var r := SingletonsF(u, st, classes);
      assert r.st.catalog[|st.catalog|..] == [];
    }
  }

  // ---------------------------------------------------------------------
  // Injection over the catalog


  /** The fields `resolveInjections` wires on the object `id`: those of its
      runtime class. */
  function WiringOf(u: Universe, heap: map<nat, Obj>, id: nat): seq<FieldDesc>
    requires id in heap
  {
    WiringTargets(Describe(u, heap[id].cls).fields)
  }

  ghost predicate RecordsInHeap(heap: map<nat, Obj>, recs: seq<BeanRecord>)
  {
    forall i :: 0 <= i < |recs| ==> recs[i].instance in heap
  }

  /** `resolveInjections`: wire the beans of `recs` in order, stopping at the
      first failure. */
  function InjectionsF(env: Env, st: State, recs: seq<BeanRecord>, fuel: nat): (r: Step<()>)
    requires Valid(st) && RecordsInHeap(st.heap, recs)
    ensures Grows(st, r.st) && Valid(r.st) && forall id :: id in st.heap ==> id in r.st.heap
    ensures r.res.Failure? ==> r.res.error == Generic || r.res.error == Exhausted
    decreases |recs|
  {
    if recs == [] then Step(Success(()), st)
    else
      var id := recs[0].instance;
      var first := InjectFieldsF(env, st, id, WiringOf(env.u, st.heap, id), fuel);
      if first.res.Failure? then first
      else
        assert forall i :: 1 <= i < |recs| ==> recs[i] == recs[1..][i - 1];
        InjectionsF(env, first.st, recs[1..], fuel)
  }

  /** Wiring one bean: the `@Inject` and `@PropertyValue` fields of its
      runtime class. */
  function WireBean(env: Env, st: State, id: nat, fuel: nat): Step<()>
    requires Valid(st) && id in st.heap
  {
    InjectFieldsF(env, st, id, WiringOf(env.u, st.heap, id), fuel)
  }

  /** Wiring a prefix of one more bean, when the first bean is wired. */
  lemma InjectionsPrefix(env: Env, st: State, recs: seq<BeanRecord>, i: nat, fuel: nat)
    requires Valid(st) && RecordsInHeap(st.heap, recs) && i < |recs|
    requires WireBean(env, st, recs[0].instance, fuel).res.Success?
    ensures RecordsInHeap(st.heap, recs[..i + 1])
    ensures RecordsInHeap(WireBean(env, st, recs[0].instance, fuel).st.heap, recs[1..][..i])
    ensures InjectionsF(env, st, recs[..i + 1], fuel) ==
      InjectionsF(env, WireBean(env, st, recs[0].instance, fuel).st, recs[1..][..i], fuel)
  {
    var pre := recs[..i + 1];
    assert pre[0] == recs[0] && pre[1..] == recs[1..][..i];
    assert forall j :: 0 <= j < i ==> recs[1..][..i][j] == recs[j + 1];
  }

  /** `resolveInjections` over `recs` fails at bean `i`: the beans before it
      were wired, and the outcome is the wiring of bean `i` on the state
      they left. */
  ghost predicate InjectionsFailAt(env: Env, st: State, recs: seq<BeanRecord>, i: int, fuel: nat)
    requires Valid(st) && RecordsInHeap(st.heap, recs)
  {
    && 0 <= i < |recs| && RecordsInHeap(st.heap, recs[..i])
    && InjectionsF(env, st, recs[..i], fuel).res.Success?
    && recs[i].instance in InjectionsF(env, st, recs[..i], fuel).st.heap
    && InjectionsF(env, st, recs, fuel) == WireBean(env, InjectionsF(env, st, recs[..i], fuel).st, recs[i].instance, fuel)
  }

  /** Failing at `i` after a wired first bean is failing at `i + 1` with it. */
  lemma InjectionsFailShift(env: Env, st: State, recs: seq<BeanRecord>, i: nat, fuel: nat)
    requires Valid(st) && RecordsInHeap(st.heap, recs) && i + 1 < |recs|
    requires WireBean(env, st, recs[0].instance, fuel).res.Success?
    requires var first := WireBean(env, st, recs[0].instance, fuel);
      RecordsInHeap(first.st.heap, recs[1..]) && InjectionsFailAt(env, first.st, recs[1..], i, fuel)
    ensures InjectionsFailAt(env, st, recs, i + 1, fuel)
  {
    var first := WireBean(env, st, recs[0].instance, fuel);
    assert InjectionsF(env, st, recs, fuel) == InjectionsF(env, first.st, recs[1..], fuel);
    InjectionsPrefix(env, st, recs, i, fuel);
    assert recs[i + 1] == recs[1..][i];
  }

  /** A failure of `resolveInjections` is the failure of the first bean whose
      wiring fails, run on the state the beans before it left. */
  lemma {:induction false} InjectionsFailure(env: Env, st: State, recs: seq<BeanRecord>, fuel: nat)
    requires Valid(st) && RecordsInHeap(st.heap, recs) && InjectionsF(env, st, recs, fuel).res.Failure?
    ensures exists i :: InjectionsFailAt(env, st, recs, i, fuel)
    decreases |recs|
  {
    var first := WireBean(env, st, recs[0].instance, fuel);
    if first.res.Failure? {
      assert recs[..0] == [];
      assert InjectionsF(env, st, recs[..0], fuel) == Step(Success(()), st);
      assert InjectionsFailAt(env, st, recs, 0, fuel);
    } else {
      var rest := recs[1..];
      assert RecordsInHeap(first.st.heap, rest);
      assert InjectionsF(env, st, recs, fuel) == InjectionsF(env, first.st, rest, fuel);
      InjectionsFailure(env, first.st, rest, fuel);
      var i :| InjectionsFailAt(env, first.st, rest, i, fuel);
      InjectionsFailShift(env, st, recs, i, fuel);
    }
  }

  /** Bean `i` of `recs` is wired: the beans before it were wired, and so is
      bean `i` on the state they left. */
  ghost predicate InjectionsWireAt(env: Env, st: State, recs: seq<BeanRecord>, i: int, fuel: nat)
    requires Valid(st) && RecordsInHeap(st.heap, recs) && 0 <= i < |recs|
  {
    && RecordsInHeap(st.heap, recs[..i])
    && InjectionsF(env, st, recs[..i], fuel).res.Success?
    && recs[i].instance in InjectionsF(env, st, recs[..i], fuel).st.heap
    && WireBean(env, InjectionsF(env, st, recs[..i], fuel).st, recs[i].instance, fuel).res.Success?
  }

  /** Bean `i` wired after a wired first bean is bean `i + 1` wired with it. */
  lemma InjectionsWireShift(env: Env, st: State, recs: seq<BeanRecord>, i: nat, fuel: nat)
    requires Valid(st) && RecordsInHeap(st.heap, recs) && i + 1 < |recs|
    requires WireBean(env, st, recs[0].instance, fuel).res.Success?
    requires var first := WireBean(env, st, recs[0].instance, fuel);
      RecordsInHeap(first.st.heap, recs[1..]) && InjectionsWireAt(env, first.st, recs[1..], i, fuel)
    ensures InjectionsWireAt(env, st, recs, i + 1, fuel)
  {
    InjectionsPrefix(env, st, recs, i, fuel);
    assert recs[i + 1] == recs[1..][i];
  }

  /** After a successful `resolveInjections`, every bean was wired in turn. */
  lemma {:induction false} InjectionsAllWired(env: Env, st: State, recs: seq<BeanRecord>, fuel: nat)
    requires Valid(st) && RecordsInHeap(st.heap, recs) && InjectionsF(env, st, recs, fuel).res.Success?
    ensures forall i :: 0 <= i < |recs| ==> InjectionsWireAt(env, st, recs, i, fuel)
    decreases |recs|
  {
    if recs != [] {
      var first := WireBean(env, st, recs[0].instance, fuel);
      var rest := recs[1..];
      assert RecordsInHeap(first.st.heap, rest);
      assert InjectionsF(env, st, recs, fuel) == InjectionsF(env, first.st, rest, fuel);
      InjectionsAllWired(env, first.st, rest, fuel);
      forall i | 0 <= i < |recs|
        ensures InjectionsWireAt(env, st, recs, i, fuel)
      {
        if i == 0 {
          assert recs[..0] == [];
          assert InjectionsF(env, st, recs[..0], fuel) == Step(Success(()), st);
        } else {
          InjectionsWireShift(env, st, recs, i - 1, fuel);
        }
      }
    }
  }

  /** `resolveInjections` succeeds exactly when every bean's wiring succeeds
      on the state the beans before it left. */
  lemma InjectionsSucceed(env: Env, st: State, recs: seq<BeanRecord>, fuel: nat)
    requires Valid(st) && RecordsInHeap(st.heap, recs)
    ensures InjectionsF(env, st, recs, fuel).res.Success? <==>
      forall i :: 0 <= i < |recs| ==> InjectionsWireAt(env, st, recs, i, fuel)
  {
    if InjectionsF(env, st, recs, fuel).res.Success? {
      InjectionsAllWired(env, st, recs, fuel);
    } else {
      InjectionsFailure(env, st, recs, fuel);
      var i :| InjectionsFailAt(env, st, recs, i, fuel);
      assert !InjectionsWireAt(env, st, recs, i, fuel);
    }
  }

  /** Injection keeps the class of every object, and every object that is
      not one of the records' beans is left as it was. */
  lemma {:induction false} InjectionsKeep(env: Env, st: State, recs: seq<BeanRecord>, fuel: nat)
    requires Valid(st) && RecordsInHeap(st.heap, recs)
    ensures var r := InjectionsF(env, st, recs, fuel);
      && (forall id :: id in st.heap ==> r.st.heap[id].cls == st.heap[id].cls)
      && (forall id :: id in st.heap && Unregistered(recs, id) ==> r.st.heap[id] == st.heap[id])
    decreases |recs|
  {
    if recs != [] {
      var id := recs[0].instance;
      var first := InjectFieldsF(env, st, id, WiringOf(env.u, st.heap, id), fuel);
      if first.res.Success? {
        var rest := recs[1..];
        assert forall i :: 1 <= i < |recs| ==> recs[i] == rest[i - 1];
        InjectionsKeep(env, first.st, rest, fuel);
        var r := InjectionsF(env, first.st, rest, fuel);
        forall x | x in st.heap
          ensures r.st.heap[x].cls == st.heap[x].cls
          ensures Unregistered(recs, x) ==> r.st.heap[x] == st.heap[x]
        {
          if x == id {
            assert first.st.heap[x].cls == st.heap[x].cls;
          } else {
            assert first.st.heap[x] == st.heap[x];
            if Unregistered(recs, x) {
              assert Unregistered(rest, x);
            }
          }
        }
      }
    }
  }

  /** Wiring the records from position `i` on: the record at `i`, then,
      if that succeeded, the rest. */
  lemma InjectionsStep(env: Env, st: State, recs: seq<BeanRecord>, i: nat, fuel: nat)
    requires Valid(st) && RecordsInHeap(st.heap, recs) && i < |recs|
    ensures RecordsInHeap(st.heap, recs[i..])
    ensures var id := recs[i].instance;
      var first := InjectFieldsF(env, st, id, WiringOf(env.u, st.heap, id), fuel);
      && RecordsInHeap(first.st.heap, recs[i + 1..])
      && InjectionsF(env, st, recs[i..], fuel) ==
        if first.res.Failure? then first else InjectionsF(env, first.st, recs[i + 1..], fuel)
  {
    assert recs[i..][0] == recs[i] && recs[i..][1..] == recs[i + 1..];
    assert forall k :: 0 <= k < |recs[i..]| ==> recs[i..][k] == recs[i + k];
    var j := i + 1;
    assert forall k :: 0 <= k < |recs[j..]| ==> recs[j..][k] == recs[j + k];
  }

  /** Wiring other beans leaves the fields of an earlier bean wired. */
  lemma StaysWired(env: Env, st: State, st': State, id: nat, fs: seq<FieldDesc>)
    requires forall f :: f in fs ==> Wired(env, st, id, f)
    requires Grows(st, st') && id in st.heap && id in st'.heap && st'.heap[id] == st.heap[id]
    requires forall x :: x in st.heap ==> x in st'.heap && st'.heap[x].cls == st.heap[x].cls
    ensures forall f :: f in fs ==> Wired(env, st', id, f)
  {
    forall f | f in fs
      ensures Wired(env, st', id, f)
    {
      assert Wired(env, st, id, f);
    }
  }

  /** After `resolveInjections` succeeds, the fields of the first bean are
      wired: wiring it did so, and wiring the others keeps them. */
  lemma InjectionsWiredFirst(env: Env, st: State, recs: seq<BeanRecord>, fuel: nat)
    requires Valid(st) && RecordsInHeap(st.heap, recs) && WellFormed(env.u) && recs != []
    requires Unregistered(recs[1..], recs[0].instance)
    requires InjectionsF(env, st, recs, fuel).res.Success?
    ensures var r := InjectionsF(env, st, recs, fuel);
      forall f :: f in WiringOf(env.u, st.heap, recs[0].instance) ==> Wired(env, r.st, recs[0].instance, f)
  {
    var id := recs[0].instance;
    var fs := WiringOf(env.u, st.heap, id);
    var first := InjectFieldsF(env, st, id, fs, fuel);
    var rest := recs[1..];
    assert forall i :: 0 <= i < |rest| ==> rest[i] == recs[i + 1];
    var r := InjectionsF(env, first.st, rest, fuel);
    assert NamesIdentify(fs) by {
      WiringTargetsSelect(Describe(env.u, st.heap[id].cls).fields);
      assert NamesIdentify(Describe(env.u, st.heap[id].cls).fields);
    }
    FieldsWired(env, st, id, fs, fuel);
    InjectionsKeep(env, first.st, rest, fuel);
    StaysWired(env, first.st, r.st, id, fs);
  }

  /** After `resolveInjections` succeeds, every field it wires on every bean
      holds what its route prescribes. */
  lemma {:induction false} InjectionsWired(env: Env, st: State, recs: seq<BeanRecord>, fuel: nat)
    requires Valid(st) && RecordsInHeap(st.heap, recs) && WellFormed(env.u)
    requires forall i, j :: 0 <= i < j < |recs| ==> recs[i].instance != recs[j].instance
    requires InjectionsF(env, st, recs, fuel).res.Success?
    ensures var r := InjectionsF(env, st, recs, fuel);
      forall i, f :: 0 <= i < |recs| && f in WiringOf(env.u, st.heap, recs[i].instance) ==>
        Wired(env, r.st, recs[i].instance, f)
    decreases |recs|
  {
    if recs != [] {
      var id := recs[0].instance;
      var first := InjectFieldsF(env, st, id, WiringOf(env.u, st.heap, id), fuel);
      var rest := recs[1..];
      assert forall i :: 0 <= i < |rest| ==> rest[i] == recs[i + 1];
      var r := InjectionsF(env, st, recs, fuel);
      assert r == InjectionsF(env, first.st, rest, fuel);
      InjectionsWiredFirst(env, st, recs, fuel);
      InjectionsWired(env, first.st, rest, fuel);
      forall i, f | 1 <= i < |recs| && f in WiringOf(env.u, st.heap, recs[i].instance)
        ensures Wired(env, r.st, recs[i].instance, f)
      {
        var x := recs[i].instance;
        assert x == rest[i - 1].instance && x != id;
        assert first.st.heap[x] == st.heap[x];
        assert WiringOf(env.u, st.heap, x) == WiringOf(env.u, first.st.heap, x);
      }
    }
  }

  // ---------------------------------------------------------------------
  // start

  /** What the container is built with: the classes, what each property
      source yields when read, and the parsers of the coercion helper. */
  datatype Config = Config(u: Universe, sources: seq<Option<Table>>,
                           readInt: string -> Option<int>, readBool: string -> Option<bool>)

  /** How a run of the bootstrap phases ends: the outcome, the property
      table, the state and the hooks invoked. */
  datatype Boot = Boot(res: Result<(), Fault>, props: Table, st: State, trace: seq<Call>)

  /** The instances of the records, in registration order. */
  function Instances(recs: seq<BeanRecord>): (r: seq<nat>)
    ensures |r| == |recs| && forall i :: 0 <= i < |recs| ==> r[i] == recs[i].instance
  {
    if recs == [] then [] else [recs[0].instance] + Instances(recs[1..])
  }

  /** The phases of `start` on a container that has not started: properties,
      then provider beans, singletons, injection over the whole catalog and
      the hooks, each only if the previous ones succeeded. */
  function StartF(cfg: Config, system: Table, props: Table, st: State,
                  providers: seq<string>, singletons: seq<string>, fuel: nat): (b: Boot)
    requires Valid(st)
    ensures Valid(b.st) && b.props == Merge(props, cfg.sources, system)
    ensures |st.catalog| <= |b.st.catalog| && b.st.catalog[..|st.catalog|] == st.catalog
    ensures forall id :: id in st.heap ==> id in b.st.heap
  {
    var props' := Merge(props, cfg.sources, system);
    var s := RegisterF(cfg.u, st, providers, singletons);
    if s.res.Failure? then Boot(s.res, props', s.st, [])
    else ReadyF(Env(cfg.u, props', cfg.readInt, cfg.readBool), s.st, fuel)
  }

  /** The phases of `start` after registration: injection over the whole
      catalog, then the hooks of every bean, the latter only if the former
      succeeded. */
  function ReadyF(env: Env, st: State, fuel: nat): (b: Boot)
    requires Valid(st)
    ensures Grows(st, b.st) && Valid(b.st) && b.props == env.props
    ensures forall id :: id in st.heap ==> id in b.st.heap
    ensures b.res.Failure? ==> b.res.error == Generic || b.res.error == Exhausted || b.res.error == Coded(BeanInitFailed)
  {
    var w := InjectionsF(env, st, st.catalog, fuel);
    if w.res.Failure? then Boot(w.res, env.props, w.st, [])
    else
      var i := InitF(env.u, w.st.heap, Instances(w.st.catalog), 0);
      Boot(i.res, env.props, w.st, i.trace)
  }

  lemma RecordsForLarger(added: seq<BeanRecord>, ms: seq<MethodDesc>, heap: map<nat, Obj>, heap': map<nat, Obj>, from: nat)
    requires RecordsFor(added, ms, heap, from) && forall id :: id in heap ==> id in heap'
    ensures RecordsFor(added, ms, heap', from)
  {
  }

  /** The catalog `cat` is `before` followed by one record per provider
      method of `pm` and then one per class of `singletons`. */
  ghost predicate Registered(u: Universe, before: seq<BeanRecord>, cat: seq<BeanRecord>, heap: map<nat, Obj>, from: nat,
                             pm: seq<MethodDesc>, singletons: seq<string>)
  {
    var n := |before|;
    && |cat| == n + |pm| + |singletons|
    && cat[..n] == before
    && RecordsFor(cat[n..n + |pm|], pm, heap, from)
    && forall i :: 0 <= i < |singletons| ==>
         && cat[n + |pm| + i].name == BeanName(u, singletons[i])
         && cat[n + |pm| + i].typeName == singletons[i]
  }

  lemma RegisteredLarger(u: Universe, before: seq<BeanRecord>, cat: seq<BeanRecord>, heap: map<nat, Obj>,
                         heap': map<nat, Obj>, from: nat, pm: seq<MethodDesc>, singletons: seq<string>)
    requires Registered(u, before, cat, heap, from, pm, singletons)
    requires forall id :: id in heap ==> id in heap'
    ensures Registered(u, before, cat, heap', from, pm, singletons)
  {
    var n := |before|;
    RecordsForLarger(cat[n..n + |pm|], pm, heap, heap', from);
  }

  /** The catalog after the provider phase and then the singleton phase. */
  lemma CatalogAfterPhases(u: Universe, st: State, pst: State, sst: State,
                           pm: seq<MethodDesc>, singletons: seq<string>)
    requires Appends(st, pst) && RecordsFor(pst.catalog[|st.catalog|..], pm, pst.heap, st.nextId)
    requires Appends(pst, sst) && SingletonRecords(u, sst.catalog[|pst.catalog|..], singletons, pst.nextId)
    ensures Registered(u, st.catalog, sst.catalog, sst.heap, st.nextId, pm, singletons)
  {
    var n := |st.catalog|;
    assert |pst.catalog| == n + |pm|;
    assert sst.catalog[..|pst.catalog|] == pst.catalog;
    assert sst.catalog[..n] == pst.catalog[..n];
    assert sst.catalog[n..n + |pm|] == pst.catalog[n..];
    RecordsForLarger(pst.catalog[n..], pm, pst.heap, sst.heap, st.nextId);
    forall i | 0 <= i < |singletons|
      ensures sst.catalog[n + |pm| + i] == sst.catalog[|pst.catalog|..][i]
    {
    }
  }

  /** The two registration phases of `start`: provider beans, then scanned
      singletons. */
  function RegisterF(u: Universe, st: State, providers: seq<string>, singletons: seq<string>): (r: Step<()>)
    requires Valid(st)
    ensures Valid(r.st) && Appends(st, r.st)
  {
    var p := ProvidersF(u, st, providers);
    if p.res.Failure? then p
    else
      var s := SingletonsF(u, p.st, singletons);
      AppendsTrans(st, p.st, s.st);
      s
  }

  /** After both registration phases succeed, the catalog is the old one,
      then one record per `@Singleton` provider method, then one per
      scanned singleton. */
  lemma RegisterRecords(u: Universe, st: State, providers: seq<string>, singletons: seq<string>)
    requires Valid(st) && RegisterF(u, st, providers, singletons).res.Success?
    ensures var r := RegisterF(u, st, providers, singletons);
      Registered(u, st.catalog, r.st.catalog, r.st.heap, st.nextId, ProvidedMethods(u, providers), singletons)
  {
    var p := ProvidersF(u, st, providers);
    ProvidersRegister(u, st, providers);
    SingletonsRegister(u, p.st, singletons);
    var s := SingletonsF(u, p.st, singletons);
    CatalogAfterPhases(u, st, p.st, s.st, ProvidedMethods(u, providers), singletons);
  }

  /** A successful `start` resolved the properties and registered one bean
      per `@Singleton` provider method, then one per scanned singleton, in
      order, after the beans already there. */
  lemma StartRegisters(cfg: Config, system: Table, props: Table, st: State,
                       providers: seq<string>, singletons: seq<string>, fuel: nat)
    requires Valid(st)
    requires StartF(cfg, system, props, st, providers, singletons, fuel).res.Success?
    ensures var b := StartF(cfg, system, props, st, providers, singletons, fuel);
      && b.props == Merge(props, cfg.sources, system)
      && Registered(cfg.u, st.catalog, b.st.catalog, b.st.heap, st.nextId, ProvidedMethods(cfg.u, providers), singletons)
  {
    var s := RegisterF(cfg.u, st, providers, singletons);
    var env := Env(cfg.u, Merge(props, cfg.sources, system), cfg.readInt, cfg.readBool);
    var w := InjectionsF(env, s.st, s.st.catalog, fuel);
    RegisterRecords(cfg.u, st, providers, singletons);
    RegisteredLarger(cfg.u, st.catalog, s.st.catalog, s.st.heap, w.st.heap, st.nextId,
                     ProvidedMethods(cfg.u, providers), singletons);
  }

  /** After a successful `start`, every `@Inject` and `@PropertyValue` field
      of every bean holds what its route prescribes. */
  lemma StartWires(cfg: Config, system: Table, props: Table, st: State,
                   providers: seq<string>, singletons: seq<string>, fuel: nat)
    requires Valid(st) && WellFormed(cfg.u)
    requires StartF(cfg, system, props, st, providers, singletons, fuel).res.Success?
    ensures var b := StartF(cfg, system, props, st, providers, singletons, fuel);
      forall i, f :: 0 <= i < |b.st.catalog| && f in WiringOf(cfg.u, b.st.heap, b.st.catalog[i].instance) ==>
        Wired(Env(cfg.u, b.props, cfg.readInt, cfg.readBool), b.st, b.st.catalog[i].instance, f)
  {
    var props' := Merge(props, cfg.sources, system);
    var s := RegisterF(cfg.u, st, providers, singletons);
    var env := Env(cfg.u, props', cfg.readInt, cfg.readBool);
    var w := InjectionsF(env, s.st, s.st.catalog, fuel);
    InjectionsWired(env, s.st, s.st.catalog, fuel);
    InjectionsKeep(env, s.st, s.st.catalog, fuel);
    forall i | 0 <= i < |w.st.catalog|
      ensures WiringOf(cfg.u, w.st.heap, w.st.catalog[i].instance) == WiringOf(cfg.u, s.st.heap, s.st.catalog[i].instance)
    {
    }
  }

  /** A successful `start` invoked every hook of every bean exactly once,
      bean by bean in registration order. */
  lemma StartRunsHooks(cfg: Config, system: Table, props: Table, st: State,
                       providers: seq<string>, singletons: seq<string>, fuel: nat)
    requires Valid(st)
    requires StartF(cfg, system, props, st, providers, singletons, fuel).res.Success?
    ensures var b := StartF(cfg, system, props, st, providers, singletons, fuel);
      b.trace == AllHooks(cfg.u, b.st.heap, Instances(b.st.catalog), 0)
  {
    var props' := Merge(props, cfg.sources, system);
    var s := RegisterF(cfg.u, st, providers, singletons);
    var env := Env(cfg.u, props', cfg.readInt, cfg.readBool);
    var w := InjectionsF(env, s.st, s.st.catalog, fuel);
    InitFlat(cfg.u, w.st.heap, Instances(w.st.catalog), 0);
    RunHooksStops(AllHooks(cfg.u, w.st.heap, Instances(w.st.catalog), 0));
  }
}

=== FILE: catalog.dfy ===
/** The catalog: the insertion-ordered registry of beans, candidate lookup
    by assignable type and optional name, and the one-candidate rule that
    `injectDependency` applies to a lookup. */
module Catalog {
  import opened Wrappers
  import opened Descriptors

  /** One registered bean: its instance (an object id), its registration
      name and its runtime class. */
  datatype BeanRecord = BeanRecord(instance: nat, name: string, typeName: string)

  /** A record answers a request for `requested`, optionally qualified by
      `name`. */
  predicate Matches(u: Universe, rec: BeanRecord, requested: string, name: Option<string>)
  {
    Assignable(u, rec.typeName, requested) && (name.None? || rec.name == name.value)
  }

  /** `fetchCandidates`: the matching records, in registration order. */
  function FetchCandidates(u: Universe, records: seq<BeanRecord>, requested: string, name: Option<string>)
    : (r: seq<BeanRecord>)
    ensures |r| <= |records|
    ensures forall i :: 0 <= i < |r| ==> Matches(u, r[i], requested, name)
  {
    if records == [] then []
    else
      var rest := FetchCandidates(u, records[1..], requested, name);
      if Matches(u, records[0], requested, name) then [records[0]] + rest else rest
  }

  /** The candidates are exactly the registrations that match. */
  lemma {:induction false} CandidatesAreMatches(u: Universe, records: seq<BeanRecord>, requested: string, name: Option<string>)
    ensures forall x :: x in FetchCandidates(u, records, requested, name) <==> x in records && Matches(u, x, requested, name)
  {
    if records != [] {
      CandidatesAreMatches(u, records[1..], requested, name);
      assert forall x :: x in records <==> x == records[0] || x in records[1..];
    }
  }

  ghost predicate NoMatch(u: Universe, records: seq<BeanRecord>, requested: string, name: Option<string>)
  {
    forall i :: 0 <= i < |records| ==> !Matches(u, records[i], requested, name)
  }

  ghost predicate OnlyMatchAt(u: Universe, records: seq<BeanRecord>, requested: string, name: Option<string>, i: int)
  {
    && 0 <= i < |records| && Matches(u, records[i], requested, name)
    && forall j :: 0 <= j < |records| && j != i ==> !Matches(u, records[j], requested, name)
  }

  ghost predicate SeveralMatch(u: Universe, records: seq<BeanRecord>, requested: string, name: Option<string>)
  {
    exists i, j :: 0 <= i < j < |records| && Matches(u, records[i], requested, name) && Matches(u, records[j], requested, name)
  }

  /** No candidate exactly when no registration matches. */
  lemma {:induction false} NoCandidate(u: Universe, records: seq<BeanRecord>, requested: string, name: Option<string>)
    ensures |FetchCandidates(u, records, requested, name)| == 0 <==> NoMatch(u, records, requested, name)
  {
    if records != [] {
      var rest := records[1..];
      NoCandidate(u, rest, requested, name);
      assert forall i :: 0 < i < |records| ==> records[i] == rest[i - 1];
    }
  }

  /** A single candidate is the one registration that matches. */
  lemma {:induction false} OneCandidate(u: Universe, records: seq<BeanRecord>, requested: string, name: Option<string>)
    requires |FetchCandidates(u, records, requested, name)| == 1
    ensures exists i :: OnlyMatchAt(u, records, requested, name, i)
                     && FetchCandidates(u, records, requested, name)[0] == records[i]
  {
    var rest := records[1..];
    assert forall i :: 0 < i < |records| ==> records[i] == rest[i - 1];
    if Matches(u, records[0], requested, name) {
      NoCandidate(u, rest, requested, name);
      assert OnlyMatchAt(u, records, requested, name, 0);
    } else {
      OneCandidate(u, rest, requested, name);
      var i :| OnlyMatchAt(u, rest, requested, name, i)
            && FetchCandidates(u, rest, requested, name)[0] == rest[i];
      assert OnlyMatchAt(u, records, requested, name, i + 1);
    }
  }

  /** Two registrations that match give at least two candidates. */
  lemma {:induction false} SeveralMatchSeveralCandidates(u: Universe, records: seq<BeanRecord>, requested: string, name: Option<string>)
    requires SeveralMatch(u, records, requested, name)
    ensures |FetchCandidates(u, records, requested, name)| >= 2
  {
    var rest := records[1..];
    var i, j :| 0 <= i < j < |records| && Matches(u, records[i], requested, name) && Matches(u, records[j], requested, name);
    assert rest[j - 1] == records[j];
    if i == 0 {
      NoCandidate(u, rest, requested, name);
    } else {
      assert rest[i - 1] == records[i];
      SeveralMatchSeveralCandidates(u, rest, requested, name);
    }
  }

  /** At least two candidates come from two registrations that match. */
  lemma {:induction false} SeveralCandidatesSeveralMatch(u: Universe, records: seq<BeanRecord>, requested: string, name: Option<string>)
    requires |FetchCandidates(u, records, requested, name)| >= 2
    ensures SeveralMatch(u, records, requested, name)
  {
    assert records != [];
    var rest := records[1..];
    var c := FetchCandidates(u, records, requested, name);
    var c' := FetchCandidates(u, rest, requested, name);
    if Matches(u, records[0], requested, name) {
      assert c == [records[0]] + c';
      NoCandidate(u, rest, requested, name);
      assert !NoMatch(u, rest, requested, name);
      var k :| 0 <= k < |rest| && Matches(u, rest[k], requested, name);
      assert records[k + 1] == rest[k];
    } else {
      assert c == c';
      SeveralCandidatesSeveralMatch(u, rest, requested, name);
      var i, j :| 0 <= i < j < |rest| && Matches(u, rest[i], requested, name) && Matches(u, rest[j], requested, name);
      assert records[i + 1] == rest[i] && records[j + 1] == rest[j];
    }
  }

  /** The lookup branch of `injectDependency`: no candidate fails with
      `UNABLE_TO_INJECT_NAMED`, exactly one is the bean injected, more fail
      with `MULTIPLE_DEFINITIONS`. */
  function Lookup(u: Universe, records: seq<BeanRecord>, requested: string, name: Option<string>)
    : (r: Result<nat, Fault>)
    ensures r.Failure? ==> r.error == Coded(UnableToInjectNamed) || r.error == Coded(MultipleDefinitions)
    ensures r.Success? ==>
      exists i :: 0 <= i < |records| && records[i].instance == r.value && Matches(u, records[i], requested, name)
  {
    var candidates := FetchCandidates(u, records, requested, name);
    CandidatesAreMatches(u, records, requested, name);
    if |candidates| == 0 then Failure(Coded(UnableToInjectNamed))
    else if |candidates| == 1 then Success(candidates[0].instance)
    else Failure(Coded(MultipleDefinitions))
  }

  /** The lookup never guesses: it succeeds exactly when one registration
      matches, and then yields that registration's instance. */
  lemma LookupCharacterised(u: Universe, records: seq<BeanRecord>, requested: string, name: Option<string>)
    ensures var r := Lookup(u, records, requested, name);
      && (r == Failure(Coded(UnableToInjectNamed)) <==> NoMatch(u, records, requested, name))
      && (r == Failure(Coded(MultipleDefinitions)) <==> SeveralMatch(u, records, requested, name))
      && (r.Success? ==> exists i :: OnlyMatchAt(u, records, requested, name, i) && records[i].instance == r.value)
  {
    NoCandidate(u, records, requested, name);
    if SeveralMatch(u, records, requested, name) {
      SeveralMatchSeveralCandidates(u, records, requested, name);
    }
    if |FetchCandidates(u, records, requested, name)| >= 2 {
      SeveralCandidatesSeveralMatch(u, records, requested, name);
    }
    if |FetchCandidates(u, records, requested, name)| == 1 {
      OneCandidate(u, records, requested, name);
    }
  }

  /** Two registrations of one type without a qualifier make an unqualified
      lookup ambiguous, while a qualifier naming just one of them resolves to it. */
  lemma QualifierBreaksTie(u: Universe, a: BeanRecord, b: BeanRecord, requested: string)
    requires a.typeName == requested && b.typeName == requested && a.name != b.name
    ensures Lookup(u, [a, b], requested, None) == Failure(Coded(MultipleDefinitions))
    ensures Lookup(u, [a, b], requested, Some(a.name)) == Success(a.instance)
  {
    assert FetchCandidates(u, [a, b], requested, None) == [a, b] by {
      assert [a, b][1..] == [b];
    }
    assert FetchCandidates(u, [a, b], requested, Some(a.name)) == [a] by {
      assert [a, b][1..] == [b];
      assert FetchCandidates(u, [b], requested, Some(a.name)) == [];
    }
  }
}

=== FILE: container.dfy ===
/** The container object: its `started` flag, property table, catalog and
    the heap of objects it creates, with one method per operation of the
    context. Each method is proved to do exactly what the corresponding
    function of the engine describes. */
module Context {
  import opened Wrappers
  import opened Descriptors
  import opened Properties
  import opened Catalog
  import opened Injection
  import opened Lifecycle
  import opened Bootstrap

  class Container {
    const universe: Universe
    const sources: seq<Option<Table>>
    const readInt: string -> Option<int>
    const readBool: string -> Option<bool>

    var started: bool
    var properties: Table
    var catalog: seq<BeanRecord>
    var heap: map<nat, Obj>
    var nextId: nat
    /** The `@PostConstruct` invocations made so far, in order. */
    var invoked: seq<Call>

    function Snapshot(): State
      reads this
    {
      State(catalog, heap, nextId)
    }

    function CurrentEnv(): Env
      reads this
    {
      Env(universe, properties, readInt, readBool)
    }

    function Settings(): Config
    {
      Config(universe, sources, readInt, readBool)
    }

    ghost predicate Valid()
      reads this
    {
      Injection.Valid(Snapshot())
    }

    /** A context over the given classes and property sources, not started. */
    constructor (universe: Universe, sources: seq<Option<Table>>,
                 readInt: string -> Option<int>, readBool: string -> Option<bool>)
      ensures Valid()
      ensures this.universe == universe && this.sources == sources
      ensures this.readInt == readInt && this.readBool == readBool
      ensures !started && properties == map[] && catalog == [] && heap == map[] && invoked == []
    {
      this.universe := universe;
      this.sources := sources;
      this.readInt := readInt;
      this.readBool := readBool;
      started := false;
      properties := map[];
      catalog := [];
      heap := map[];
      nextId := 0;
      invoked := [];
    }

    /** `resolveProperties`: `putAll` of every readable source, then each key
        overridden by the system property of that name when one is set. */
    method ResolveProperties(system: Table)
      modifies this`properties
      ensures properties == Merge(old(properties), sources, system)
    {
      var i := 0;
      while i < |sources|
        invariant 0 <= i <= |sources|
        invariant properties == PutAll(old(properties), sources[..i])
      {
        if sources[i].Some? {
          properties := properties + sources[i].value;
        }
        assert sources[..i + 1][..i] == sources[..i];
        i := i + 1;
      }
      assert sources[..i] == sources;
      var merged := properties;
      var keys := merged.Keys;
      while keys != {}
        invariant keys <= merged.Keys && properties.Keys == merged.Keys
        invariant forall k :: k in merged && k !in keys ==>
          properties[k] == if k in system then system[k] else merged[k]
        invariant forall k :: k in keys ==> properties[k] == merged[k]
        decreases keys
      {
        var k :| k in keys;
        properties := properties[k := if k in system then system[k] else properties[k]];
        keys := keys - {k};
      }
      assert properties == Override(merged, system);
    }

    /** `instance`: a new object of class `cls`, unless it is an interface or
        its constructor fails. */
    method Instance(cls: string) returns (r: Result<nat, Fault>)
      requires Valid()
      modifies this`heap, this`nextId
      ensures Valid()
      ensures Step(r, Snapshot()) == InstanceF(universe, old(Snapshot()), cls)
    {
      var d := Describe(universe, cls);
      if d.isInterface {
        return Failure(Coded(BeanIsInterface));
      }
      if !d.constructible {
        return Failure(Coded(BeanInstanceFailed));
      }
      r := Success(nextId);
      heap := heap[nextId := Obj(cls, map[])];
      nextId := nextId + 1;
    }

    /** `prototype`: a new object of class `cls` whose `@Inject` fields are
        wired; it is not registered. */
    method Prototype(cls: string, fuel: nat) returns (r: Result<nat, Fault>)
      requires Valid()
      modifies this`heap, this`nextId
      ensures Valid()
      ensures Step(r, Snapshot()) == ProtoF(CurrentEnv(), old(Snapshot()), cls, fuel)
      decreases fuel, 3, 0
    {
      var made := Instance(cls);
      if made.Failure? {
        return made;
      }
      var id := made.value;
      var done := InjectFields(id, InjectTargets(Describe(universe, cls).fields), fuel);
      r := if done.Failure? then Failure(done.error) else Success(id);
    }

    /** The `forEach(field -> injectDependency(instance, field))` over the
        fields `fs` of object `target` that a stream has already selected. */
    method InjectFields(target: nat, fs: seq<FieldDesc>, fuel: nat) returns (r: Result<(), Fault>)
      requires Valid() && target in heap
      modifies this`heap, this`nextId
      ensures Valid()
      ensures Step(r, Snapshot()) == InjectFieldsF(CurrentEnv(), old(Snapshot()), target, fs, fuel)
      decreases fuel, 2, 0
    {
      ghost var env := CurrentEnv();
      ghost var goal := InjectFieldsF(env, Snapshot(), target, fs, fuel);
      assert fs[0..] == fs;
      var i := 0;
      while i < |fs|
        invariant 0 <= i <= |fs| && Valid() && target in heap && CurrentEnv() == env
        invariant goal == InjectFieldsF(env, Snapshot(), target, fs[i..], fuel)
      {
        InjectFieldsStep(env, Snapshot(), target, fs, i, fuel);
        r := InjectDependency(target, fs[i], fuel);
        if r.Failure? {
          return;
        }
        i := i + 1;
      }
      assert fs[i..] == [];
      r := Success(());
    }

    /** `injectDependency`: resolve field `f` of object `target` by its route
        and set it; any failure escapes as a code-less exception. */
    method InjectDependency(target: nat, f: FieldDesc, fuel: nat) returns (r: Result<(), Fault>)
      requires Valid() && target in heap
      modifies this`heap, this`nextId
      ensures Valid()
      ensures Step(r, Snapshot()) == InjectF(CurrentEnv(), old(Snapshot()), target, f, fuel)
      decreases fuel, 1, 0
    {
      var inner := ResolveValue(f, fuel);
      match inner
      case Failure(e) =>
        r := Failure(Escaped(e));
      case Success(value) =>
        heap := heap[target := heap[target].(fields := heap[target].fields[f.name := value])];
        r := Success(());
    }

    /** The body of the `try` in `injectDependency`: the value for field `f`,
        or the specific exception. */
    method ResolveValue(f: FieldDesc, fuel: nat) returns (r: Result<Value, Fault>)
      requires Valid()
      modifies this`heap, this`nextId
      ensures Valid()
      ensures Step(r, Snapshot()) == InnerValueF(CurrentEnv(), old(Snapshot()), f, fuel)
      decreases fuel, 0, 0
    {
      if f.propertyKey.Some? {
        r := ResolveProperty(properties, f.typeName, f.propertyKey.value, readInt, readBool);
      } else if f.prototype || Describe(universe, f.typeName).prototype {
        if fuel == 0 {
          return Failure(Exhausted);
        }
        var p := Prototype(f.typeName, fuel - 1);
        r := if p.Failure? then Failure(p.error) else Success(Ref(p.value));
      } else {
        var bean := Lookup(universe, catalog, f.typeName, f.named);
        r := if bean.Failure? then Failure(bean.error) else Success(Ref(bean.value));
      }
    }

    /** `beanProviders`: the provider classes in list order. */
    method BeanProviders(classes: seq<string>) returns (r: Result<(), Fault>)
      requires Valid()
      modifies this`catalog, this`heap, this`nextId
      ensures Valid()
      ensures Step(r, Snapshot()) == ProvidersF(universe, old(Snapshot()), classes)
    {
      assert classes[0..] == classes;
      var i := 0;
      while i < |classes|
        invariant 0 <= i <= |classes| && Valid()
        invariant ProvidersF(universe, old(Snapshot()), classes) == ProvidersF(universe, Snapshot(), classes[i..])
      {
        assert classes[i..][0] == classes[i] && classes[i..][1..] == classes[i + 1..];
        r := ProviderBeans(classes[i]);
        if r.Failure? {
          return;
        }
        i := i + 1;
      }
      r := Success(());
    }

    /** One iteration of `beanProviders`: refuse a provider with scope-marked
        fields, else instantiate it and register what each `@Singleton`
        method returns, under the method's name. */
    method ProviderBeans(cls: string) returns (r: Result<(), Fault>)
      requires Valid()
      modifies this`catalog, this`heap, this`nextId
      ensures Valid()
      ensures Step(r, Snapshot()) == ProviderF(universe, old(Snapshot()), cls)
    {
      var d := Describe(universe, cls);
      if HasScopedField(d.fields) {
        return Failure(Coded(BeanProviderInjections));
      }
      var made := Instance(cls);
      if made.Failure? {
        return Failure(made.error);
      }
      r := InvokeProviderMethods(d.methods);
    }

    /** The inner loop of `beanProviders` over the methods of a provider. */
    method InvokeProviderMethods(ms: seq<MethodDesc>) returns (r: Result<(), Fault>)
      requires Valid()
      modifies this`catalog, this`heap, this`nextId
      ensures Valid()
      ensures Step(r, Snapshot()) == ProviderMethodsF(old(Snapshot()), ms)
    {
      assert ms[0..] == ms;
      var k := 0;
      while k < |ms|
        invariant 0 <= k <= |ms| && Valid()
        invariant ProviderMethodsF(old(Snapshot()), ms) == ProviderMethodsF(Snapshot(), ms[k..])
      {
        assert ms[k..][0] == ms[k] && ms[k..][1..] == ms[k + 1..];
        var m := ms[k];
        if m.singleton {
          if m.paramCount != 0 {
            return Failure(Coded(OperationNotSupported));
          } else if ReturnsVoid(m) {
            return Failure(Coded(OperationNotSupported));
          }
          match m.outcome
          case Throws =>
            return Failure(Coded(InvocationError));
          case Returns(c) =>
            Register(m.name, c);
        }
        // a `@Prototype` provider method is only warned about
        k := k + 1;
      }
      r := Success(());
    }

    /** Registers a new object of class `cls` under `name`. */
    method Register(name: string, cls: string)
      requires Valid()
      modifies this`catalog, this`heap, this`nextId
      ensures Valid()
      ensures Snapshot() == Alloc(old(Snapshot()), cls).(catalog := old(catalog) + [BeanRecord(old(nextId), name, cls)])
    {
      var bean := nextId;
      heap := heap[bean := Obj(cls, map[])];
      nextId := nextId + 1;
      catalog := catalog + [BeanRecord(bean, name, cls)];
    }

    /** `catalog.register`: appends a record for an object already made. */
    method Enlist(record: BeanRecord)
      requires Injection.Valid(Snapshot().(catalog := catalog + [record]))
      modifies this`catalog
      ensures Valid() && catalog == old(catalog) + [record]
    {
      catalog := catalog + [record];
    }

    /** `singletons`: instantiate each class in list order and register it
        under its `@Named` value, or else its class name. */
    method Singletons(classes: seq<string>) returns (r: Result<(), Fault>)
      requires Valid()
      modifies this`catalog, this`heap, this`nextId
      ensures Valid()
      ensures Step(r, Snapshot()) == SingletonsF(universe, old(Snapshot()), classes)
    {
      ghost var goal := SingletonsF(universe, Snapshot(), classes);
      assert classes[0..] == classes;
      var i := 0;
      while i < |classes|
        invariant 0 <= i <= |classes| && Valid()
        invariant goal == SingletonsF(universe, Snapshot(), classes[i..])
      {
        SingletonsStep(universe, Snapshot(), classes, i);
        r := Singleton(classes[i]);
        if r.Failure? {
          return;
        }
        i := i + 1;
      }
      r := Success(());
    }

    /** The body of the loop in `singletons`: one instance, registered under
        its bean name. */
    method Singleton(cls: string) returns (r: Result<(), Fault>)
      requires Valid()
      modifies this`catalog, this`heap, this`nextId
      ensures Valid()
      ensures Step(r, Snapshot()) == SingletonF(universe, old(Snapshot()), cls)
    {
      var made := Instance(cls);
      if made.Failure? {
        return Failure(made.error);
      }
      Enlist(BeanRecord(made.value, BeanName(universe, cls), cls));
      r := Success(());
    }

    /** `resolveInjections`: wire every registered bean, in catalog order. */
    method ResolveInjections(fuel: nat) returns (r: Result<(), Fault>)
      requires Valid()
      modifies this`heap, this`nextId
      ensures Valid()
      ensures Step(r, Snapshot()) == InjectionsF(CurrentEnv(), old(Snapshot()), old(catalog), fuel)
    {
      var recs := catalog;
      assert recs[0..] == recs && RecordsInHeap(heap, recs);
      ghost var goal := InjectionsF(CurrentEnv(), Snapshot(), recs, fuel);
      var i := 0;
      while i < |recs|
        invariant 0 <= i <= |recs| && Valid() && catalog == recs && RecordsInHeap(heap, recs[i..])
        invariant goal == InjectionsF(CurrentEnv(), Snapshot(), recs[i..], fuel)
      {
        InjectionsStep(CurrentEnv(), Snapshot(), recs, i, fuel);
        var bean := recs[i].instance;
        r := InjectFields(bean, WiringOf(universe, heap, bean), fuel);
        if r.Failure? {
          return;
        }
        i := i + 1;
      }
      r := Success(());
    }

    /** `init`: invoke the `@PostConstruct` methods without parameters of
        object `id`, in the order reflection returns them, until one throws. */
    method Init(id: nat) returns (r: Result<(), Fault>)
      modifies this`invoked
      ensures var run := RunHooks(Hooks(universe, heap, id));
        invoked == old(invoked) + run.trace && r == run.res
    {
      if id in heap {
        r := InvokeHooks(id, Describe(universe, heap[id].cls).methods);
      } else {
        r := InvokeHooks(id, []);
      }
    }

    /** The `forEach` of `init` over the hooks `HookCalls(id, ms)` of
        object `id`, which filters its declared methods `ms`. */
    method InvokeHooks(id: nat, ms: seq<MethodDesc>) returns (r: Result<(), Fault>)
      modifies this`invoked
      ensures var run := RunHooks(HookCalls(id, ms));
        invoked == old(invoked) + run.trace && r == run.res
    {
      var cs := HookCalls(id, ms);
      ghost var run := RunHooks(cs);
      ghost var done: seq<Call> := [];
      assert cs[0..] == cs && [] + run.trace == run.trace;
      var i := 0;
      while i < |cs|
        invariant 0 <= i <= |cs| && invoked == old(invoked) + done
        invariant run == After(done, RunHooks(cs[i..]))
      {
        RunHooksStep(done, cs, i);
        var returned := Invoke(cs[i]);
        done := done + [cs[i]];
        if !returned {
          return Failure(Coded(BeanInitFailed));
        }
        i := i + 1;
      }
      assert cs[i..] == [] && done + [] == done;
      r := Success(());
    }

    /** `method.invoke(instance)`: recorded, and it returns unless the
        method throws. */
    method Invoke(c: Call) returns (returned: bool)
      modifies this`invoked
      ensures invoked == old(invoked) + [c]
      ensures returned <==> c.hook.outcome.Returns?
    {
      invoked := invoked + [c];
      returned := c.hook.outcome.Returns?;
    }

    /** The last phase of `start`: `init` on every registered bean, in
        catalog order. */
    method InitBeans() returns (r: Result<(), Fault>)
      modifies this`invoked
      ensures var run := InitF(universe, heap, Instances(catalog), 0);
        invoked == old(invoked) + run.trace && r == run.res
    {
      var ids := Instances(catalog);
      ghost var run, done := InitF(universe, heap, ids, 0), [];
      assert [] + run.trace == run.trace;
      var i := 0;
      while i < |ids|
        invariant 0 <= i <= |ids| && invoked == old(invoked) + done
        invariant run == After(done, InitF(universe, heap, ids, i))
      {
        ghost var one := RunHooks(Hooks(universe, heap, ids[i]));
        InitStep(universe, heap, ids, i, done);
        LogTwice(old(invoked), done, one.trace);
        r := Init(ids[i]);
        done := done + one.trace;
        if r.Failure? {
          return;
        }
        i := i + 1;
      }
      assert done + [] == done;
      r := Success(());
    }

    /** The two scans of `start`: provider beans, then singletons. */
    method Scan(providers: seq<string>, singletons: seq<string>) returns (r: Result<(), Fault>)
      requires Valid()
      modifies this`catalog, this`heap, this`nextId
      ensures Valid()
      ensures Step(r, Snapshot()) == RegisterF(universe, old(Snapshot()), providers, singletons)
    {
      r := BeanProviders(providers);
      if r.Failure? {
        return;
      }
      r := Singletons(singletons);
    }

    /** Injection over the whole catalog, then the hooks of every bean. */
    method Ready(fuel: nat) returns (r: Result<(), Fault>)
      requires Valid()
      modifies this`heap, this`nextId, this`invoked
      ensures Valid()
      ensures var b := ReadyF(CurrentEnv(), old(Snapshot()), fuel);
        r == b.res && Snapshot() == b.st && invoked == old(invoked) + b.trace
    {
      r := ResolveInjections(fuel);
      if r.Failure? {
        assert invoked == old(invoked) + [];
        return;
      }
      r := InitBeans();
    }

    /** `start`: a second call only warns; otherwise properties, provider
        beans, singletons, injections and hooks, in that order, and the
        context counts as started only when all of them succeed. */
    method Start(system: Table, providers: seq<string>, singletons: seq<string>, fuel: nat)
      returns (r: Result<(), Fault>)
      requires Valid()
      modifies this`started, this`properties, this`catalog, this`heap, this`nextId, this`invoked
      ensures Valid()
      ensures started <==> old(started) || r.Success?
      ensures old(started) ==>
        && r == Success(()) && properties == old(properties)
        && Snapshot() == old(Snapshot()) && invoked == old(invoked)
      ensures !old(started) ==>
        var b := StartF(Settings(), system, old(properties), old(Snapshot()), providers, singletons, fuel);
        && r == b.res && properties == b.props && Snapshot() == b.st && invoked == old(invoked) + b.trace
    {
      if started {
        return Success(());
      }
      r := Phases(system, providers, singletons, fuel);
      started := r.Success?;
    }

    /** The phases of a first `start`, each only if the previous ones
        succeeded. */
    method Phases(system: Table, providers: seq<string>, singletons: seq<string>, fuel: nat)
      returns (r: Result<(), Fault>)
      requires Valid()
      modifies this`properties, this`catalog, this`heap, this`nextId, this`invoked
      ensures Valid()
      ensures var b := StartF(Settings(), system, old(properties), old(Snapshot()), providers, singletons, fuel);
        && r == b.res && properties == b.props && Snapshot() == b.st && invoked == old(invoked) + b.trace
    {
      ResolveProperties(system);
      r := Scan(providers, singletons);
      if r.Failure? {
        assert invoked == old(invoked) + [];
        return;
      }
      r := Ready(fuel);
    }
  }
}

=== FILE: descriptors.dfy ===
/** What the container sees of a Java class once reflection is replaced by
    explicit descriptors: annotations on types, fields and methods, the shape
    of each method, and the abstract outcome of constructing or invoking. */
module Descriptors {
  import opened Wrappers

  /** The status codes a `CoreException` may carry (class-loading failures
      belong to scanning, which is not part of this model). */
  datatype StatusCode =
    | BeanIsInterface
    | BeanInstanceFailed
    | BeanProviderInjections
    | OperationNotSupported
    | InvocationError
    | UnableToInjectNamed
    | MultipleDefinitions
    | PropertyNotFound
    | PropertyTypeError
    | BeanInitFailed

  /** Why an operation stopped: a `CoreException` with a code, the code-less
      `CoreException()` thrown when a field cannot be set, or recursion that
      ran past the depth bound (a stack overflow in the running program). */
  datatype Fault = Coded(code: StatusCode) | Generic | Exhausted

  /** The outcome of invoking a method reflectively: it returns normally
      (for a provider method, an object of the given runtime class) or throws. */
  datatype Outcome = Returns(runtimeClass: string) | Throws

  /** A declared field: its name and declared type, `@Inject`,
      `@PropertyValue(key)`, `@Named(value)`, `@Prototype` and `@Singleton`. */
  datatype FieldDesc = FieldDesc(
    name: string,
    typeName: string,
    inject: bool,
    propertyKey: Option<string>,
    named: Option<string>,
    prototype: bool,
    singleton: bool)

  /** A declared method: `@Singleton`, `@Prototype`, `@PostConstruct`, its
      parameter count, the name of its declared return type, and what
      invoking it does. */
  datatype MethodDesc = MethodDesc(
    name: string,
    singleton: bool,
    prototype: bool,
    postConstruct: bool,
    paramCount: nat,
    returnType: string,
    outcome: Outcome)

  /** A class: whether it is an interface, whether its zero-argument
      constructor succeeds, its `@Prototype` and `@Named` annotations, the
      types it is assignable to, and its declared fields and methods in
      the order reflection returns them. */
  datatype ClassDesc = ClassDesc(
    isInterface: bool,
    constructible: bool,
    prototype: bool,
    named: Option<string>,
    supertypes: set<string>,
    fields: seq<FieldDesc>,
    methods: seq<MethodDesc>)

  /** Every class the container can meet, by fully-qualified name. */
  type Universe = map<string, ClassDesc>

  /** The descriptor of a class; a class outside the universe is an ordinary
      constructible class that carries no container annotation. */
  function Describe(u: Universe, cls: string): ClassDesc
  {
    if cls in u then u[cls] else ClassDesc(false, true, false, None, {}, [], [])
  }

  /** Whether an object of runtime class `recordType` can be assigned to a
      slot of type `requested`: the same class, or one of its supertypes. */
  predicate Assignable(u: Universe, recordType: string, requested: string)
  {
    recordType == requested || requested in Describe(u, recordType).supertypes
  }

  /** Within one class a field name identifies the field, as in any Java class. */
  predicate NamesIdentify(fs: seq<FieldDesc>)
  {
    forall f, g :: f in fs && g in fs && f.name == g.name ==> f == g
  }

  predicate WellFormed(u: Universe)
  {
    forall c :: c in u ==> NamesIdentify(u[c].fields)
  }

  /** The value held by a field: a reference to an object of the container's
      heap, or a coerced property value. */
  datatype Value = Ref(id: nat) | Text(s: string) | Int(i: int) | Bool(b: bool)
}

=== FILE: injection.dfy ===
/** The object heap and the mutually recursive core of the container:
    `instance`, `prototype` and `injectDependency`, written as functions that
    take the container state and return the outcome with the new state. The
    methods of `Container` are proved to compute exactly these. */
module Injection {
  import opened Wrappers
  import opened Descriptors
  import opened Properties
  import opened Catalog

  /** An object: its runtime class and the values of the fields set so far
      (a field that is absent still holds null). */
  datatype Obj = Obj(cls: string, fields: map<string, Value>)

  /** What the engine changes: the catalog, the heap of objects by id, and
      the next unused id. */
  datatype State = State(catalog: seq<BeanRecord>, heap: map<nat, Obj>, nextId: nat)

  /** What injection reads and does not change: the classes, the resolved
      property table and the two parsers of the coercion helper. */
  datatype Env = Env(u: Universe, props: Table,
                     readInt: string -> Option<int>, readBool: string -> Option<bool>)

  /** An outcome together with the state it leaves behind. */
  datatype Step<T> = Step(res: Result<T, Fault>, st: State)

  /** Ids below the counter only, and every bean in the catalog is an
      object of its own. */
  ghost predicate Valid(st: State)
  {
    && (forall id :: id in st.heap ==> id < st.nextId)
    && (forall i :: 0 <= i < |st.catalog| ==> st.catalog[i].instance in st.heap)
    && (forall i, j :: 0 <= i < j < |st.catalog| ==> st.catalog[i].instance != st.catalog[j].instance)
  }

  /** `st'` only adds to `st`: same catalog, no object lost, new ids fresh. */
  ghost predicate Grows(st: State, st': State)
  {
    && st'.catalog == st.catalog
    && st.nextId <= st'.nextId
    && (forall id :: id in st'.heap && id !in st.heap ==> st.nextId <= id)
  }

  /** Every object of `st` other than `target` is untouched in `st'`
      (a negative target leaves every old object untouched). */
  ghost predicate KeepsExcept(st: State, st': State, target: int)
  {
    forall id :: id in st.heap ==> id in st'.heap && (id != target ==> st'.heap[id] == st.heap[id])
  }

  /** The fields of an object outside `names` are as they were. */
  ghost predicate AgreeOutside(before: map<string, Value>, after: map<string, Value>, names: set<string>)
  {
    forall n :: n !in names ==> (n in before <==> n in after) && (n in before ==> after[n] == before[n])
  }

  function Names(fs: seq<FieldDesc>): set<string>
  {
    set f | f in fs :: f.name
  }

  /** The fields `prototype` wires: those marked `@Inject`. */
  function InjectTargets(fs: seq<FieldDesc>): (r: seq<FieldDesc>)
    ensures |r| <= |fs| && forall i :: 0 <= i < |r| ==> r[i].inject
  {
    if fs == [] then []
    else if fs[0].inject then [fs[0]] + InjectTargets(fs[1..])
    else InjectTargets(fs[1..])
  }

  /** `prototype` wires exactly the `@Inject` fields. */
  lemma {:induction false} InjectTargetsSelect(fs: seq<FieldDesc>)
    ensures forall f :: f in InjectTargets(fs) <==> f in fs && f.inject
  {
    if fs != [] {
      InjectTargetsSelect(fs[1..]);
      assert forall f :: f in fs <==> f == fs[0] || f in fs[1..];
    }
  }

  /** The fields `resolveInjections` wires: `@Inject` or `@PropertyValue`. */
  function WiringTargets(fs: seq<FieldDesc>): (r: seq<FieldDesc>)
    ensures |r| <= |fs| && forall i :: 0 <= i < |r| ==> r[i].inject || r[i].propertyKey.Some?
  {
    if fs == [] then []
    else if fs[0].inject || fs[0].propertyKey.Some? then [fs[0]] + WiringTargets(fs[1..])
    else WiringTargets(fs[1..])
  }

  /** `resolveInjections` wires exactly the `@Inject` and `@PropertyValue`
      fields. */
  lemma {:induction false} WiringTargetsSelect(fs: seq<FieldDesc>)
    ensures forall f :: f in WiringTargets(fs) <==> f in fs && (f.inject || f.propertyKey.Some?)
  {
    if fs != [] {
      WiringTargetsSelect(fs[1..]);
      assert forall f :: f in fs <==> f == fs[0] || f in fs[1..];
    }
  }

  /** How `injectDependency` resolves a field: the property marker first, then
      a prototype marker on the field, then one on the field's type, and the
      catalog otherwise. */
  datatype Route = ByProperty(key: string) | ByPrototype | ByLookup(name: Option<string>)

  function RouteOf(u: Universe, f: FieldDesc): (r: Route)
    ensures r.ByProperty? <==> f.propertyKey.Some?
    ensures r.ByPrototype? <==> f.propertyKey.None? && (f.prototype || Describe(u, f.typeName).prototype)
    ensures r.ByLookup? ==> r.name == f.named
  {
    if f.propertyKey.Some? then ByProperty(f.propertyKey.value)
    else if f.prototype || Describe(u, f.typeName).prototype then ByPrototype
    else ByLookup(f.named)
  }

  /** A new object of class `cls`, with no field the container has set, under
      the next id. */
  function Alloc(st: State, cls: string): State
  {
    st.(heap := st.heap[st.nextId := Obj(cls, map[])], nextId := st.nextId + 1)
  }

  /** `instance`: an interface is refused, a failing constructor is
      reported, and otherwise a fresh object is allocated. */
  function InstanceF(u: Universe, st: State, cls: string): (r: Step<nat>)
    requires Valid(st)
    ensures Grows(st, r.st) && KeepsExcept(st, r.st, -1) && Valid(r.st)
    ensures r.res.Success? <==> !Describe(u, cls).isInterface && Describe(u, cls).constructible
    ensures Describe(u, cls).isInterface ==> r.res == Failure(Coded(BeanIsInterface))
    ensures !Describe(u, cls).isInterface && !Describe(u, cls).constructible ==>
      r.res == Failure(Coded(BeanInstanceFailed))
    ensures r.res.Failure? ==> r.st == st
    ensures r.res.Success? ==>
      && r.res.value !in st.heap
      && r.st.heap == st.heap[r.res.value := Obj(cls, map[])]
      && r.st.nextId == st.nextId + 1
  {
    var d := Describe(u, cls);
    if d.isInterface then Step(Failure(Coded(BeanIsInterface)), st)
    else if !d.constructible then Step(Failure(Coded(BeanInstanceFailed)), st)
    else Step(Success(st.nextId), Alloc(st, cls))
  }

  /** No record of the catalog holds object `id`: it is not a bean. */
  ghost predicate Unregistered(catalog: seq<BeanRecord>, id: nat)
  {
    forall i :: 0 <= i < |catalog| ==> catalog[i].instance != id
  }

  /** Field `f` of object `target` holds what its route prescribes: the
      coerced property, an unregistered prototype object of the field's
      type, or the one catalog bean that matches. */
  ghost predicate Wired(env: Env, st: State, target: nat, f: FieldDesc)
  {
    && target in st.heap && f.name in st.heap[target].fields
    && var v := st.heap[target].fields[f.name];
       match RouteOf(env.u, f)
       case ByProperty(k) => ResolveProperty(env.props, f.typeName, k, env.readInt, env.readBool) == Success(v)
       case ByPrototype =>
         v.Ref? && v.id in st.heap && st.heap[v.id].cls == f.typeName && Unregistered(st.catalog, v.id)
       case ByLookup(n) => v.Ref? && Lookup(env.u, st.catalog, f.typeName, n) == Success(v.id)
  }

  /** `prototype(cls)`: a fresh object whose `@Inject` fields are wired; it
      is never added to the catalog. */
  function ProtoF(env: Env, st: State, cls: string, fuel: nat): (r: Step<nat>)
    requires Valid(st)
    ensures Grows(st, r.st) && KeepsExcept(st, r.st, -1) && Valid(r.st)
    ensures r.res.Success? ==>
      r.res.value !in st.heap && r.res.value in r.st.heap && r.st.heap[r.res.value].cls == cls
    ensures Describe(env.u, cls).isInterface ==> r.res == Failure(Coded(BeanIsInterface)) && r.st == st
    ensures !Describe(env.u, cls).isInterface && !Describe(env.u, cls).constructible ==>
      r.res == Failure(Coded(BeanInstanceFailed)) && r.st == st
    decreases fuel, 3, 0
  {
    var made := InstanceF(env.u, st, cls);
    if made.res.Failure? then made
    else
      var id := made.res.value;
      var wired := InjectFieldsF(env, made.st, id, InjectTargets(Describe(env.u, cls).fields), fuel);
      Step(if wired.res.Failure? then Failure(wired.res.error) else Success(id), wired.st)
  }

  /** A class that can be instantiated yields a prototype exactly when the
      wiring of its `@Inject` fields on the new object succeeds; the state
      and any failure are that wiring's. */
  lemma ProtoOutcome(env: Env, st: State, cls: string, fuel: nat)
    requires Valid(st) && !Describe(env.u, cls).isInterface && Describe(env.u, cls).constructible
    ensures var r := ProtoF(env, st, cls, fuel);
      var made := InstanceF(env.u, st, cls);
      var wired := InjectFieldsF(env, made.st, made.res.value, InjectTargets(Describe(env.u, cls).fields), fuel);
      && r.st == wired.st
      && (r.res.Success? <==> wired.res.Success?)
      && (r.res.Success? ==> r.res.value == made.res.value)
      && (r.res.Failure? ==> r.res.error == wired.res.error)
  {
  }

  /** Wires the fields `fs` of `target` in order, stopping at the first failure. */
  function InjectFieldsF(env: Env, st: State, target: nat, fs: seq<FieldDesc>, fuel: nat): (r: Step<()>)
    requires Valid(st) && target in st.heap
    ensures Grows(st, r.st) && KeepsExcept(st, r.st, target) && Valid(r.st)
    ensures r.st.heap[target].cls == st.heap[target].cls
    ensures AgreeOutside(st.heap[target].fields, r.st.heap[target].fields, Names(fs))
    ensures r.res.Failure? ==> r.res.error == Generic || r.res.error == Exhausted
    decreases fuel, 2, |fs|
  {
    if fs == [] then Step(Success(()), st)
    else
      var first := InjectF(env, st, target, fs[0], fuel);
      if first.res.Failure? then first
      else InjectFieldsF(env, first.st, target, fs[1..], fuel)
  }

  /** Wiring the fields from position `i` on: field `i`, then, if it was
      set, the rest. */
  lemma InjectFieldsStep(env: Env, st: State, target: nat, fs: seq<FieldDesc>, i: nat, fuel: nat)
    requires Valid(st) && target in st.heap && i < |fs|
    ensures var first := InjectF(env, st, target, fs[i], fuel);
      InjectFieldsF(env, st, target, fs[i..], fuel) ==
        if first.res.Failure? then first else InjectFieldsF(env, first.st, target, fs[i + 1..], fuel)
  {
    assert fs[i..][0] == fs[i] && fs[i..][1..] == fs[i + 1..];
  }

  /** Wiring a prefix of one more field, when the first field is set. */
  lemma InjectFieldsPrefix(env: Env, st: State, target: nat, fs: seq<FieldDesc>, i: nat, fuel: nat)
    requires Valid(st) && target in st.heap && i < |fs|
    requires InjectF(env, st, target, fs[0], fuel).res.Success?
    ensures InjectFieldsF(env, st, target, fs[..i + 1], fuel) ==
      InjectFieldsF(env, InjectF(env, st, target, fs[0], fuel).st, target, fs[1..][..i], fuel)
  {
    var pre := fs[..i + 1];
    assert pre[0] == fs[0] && pre[1..] == fs[1..][..i];
  }

  /** A failed wiring is the failure of the first field that could not be
      set, run on the state the fields before it left. */
  lemma {:induction false} InjectFieldsFailure(env: Env, st: State, target: nat, fs: seq<FieldDesc>, fuel: nat)
    requires Valid(st) && target in st.heap && InjectFieldsF(env, st, target, fs, fuel).res.Failure?
    ensures exists i ::
      && 0 <= i < |fs|
      && InjectFieldsF(env, st, target, fs[..i], fuel).res.Success?
      && InjectFieldsF(env, st, target, fs, fuel) ==
           InjectF(env, InjectFieldsF(env, st, target, fs[..i], fuel).st, target, fs[i], fuel)
    decreases |fs|
  {
    var first := InjectF(env, st, target, fs[0], fuel);
    if first.res.Failure? {
      assert fs[..0] == [];
      assert InjectFieldsF(env, st, target, fs[..0], fuel) == Step(Success(()), st);
    } else {
      var rest := fs[1..];
      assert InjectFieldsF(env, st, target, fs, fuel) == InjectFieldsF(env, first.st, target, rest, fuel);
      InjectFieldsFailure(env, first.st, target, rest, fuel);
      var i :| && 0 <= i < |rest|
               && InjectFieldsF(env, first.st, target, rest[..i], fuel).res.Success?
               && InjectFieldsF(env, first.st, target, rest, fuel) ==
                    InjectF(env, InjectFieldsF(env, first.st, target, rest[..i], fuel).st, target, rest[i], fuel);
      InjectFieldsPrefix(env, st, target, fs, i, fuel);
      assert fs[i + 1] == rest[i];
    }
  }

  /** After a successful wiring, every field was set in turn, on the state
      the fields before it left. */
  lemma {:induction false} InjectFieldsAllSet(env: Env, st: State, target: nat, fs: seq<FieldDesc>, fuel: nat)
    requires Valid(st) && target in st.heap && InjectFieldsF(env, st, target, fs, fuel).res.Success?
    ensures forall i :: 0 <= i < |fs| ==>
      && InjectFieldsF(env, st, target, fs[..i], fuel).res.Success?
      && InjectF(env, InjectFieldsF(env, st, target, fs[..i], fuel).st, target, fs[i], fuel).res.Success?
    decreases |fs|
  {
    if fs != [] {
      var first := InjectF(env, st, target, fs[0], fuel);
      var rest := fs[1..];
      InjectFieldsAllSet(env, first.st, target, rest, fuel);
      forall i | 0 <= i < |fs|
        ensures && InjectFieldsF(env, st, target, fs[..i], fuel).res.Success?
                && InjectF(env, InjectFieldsF(env, st, target, fs[..i], fuel).st, target, fs[i], fuel).res.Success?
      {
        if i == 0 {
          assert fs[..0] == [];
        } else {
          InjectFieldsPrefix(env, st, target, fs, i - 1, fuel);
          assert fs[i] == rest[i - 1];
        }
      }
    }
  }

  /** Wiring succeeds exactly when every field's `injectDependency`
      succeeds on the state the fields before it left. */
  lemma InjectFieldsSucceed(env: Env, st: State, target: nat, fs: seq<FieldDesc>, fuel: nat)
    requires Valid(st) && target in st.heap
    ensures InjectFieldsF(env, st, target, fs, fuel).res.Success? <==>
      forall i :: 0 <= i < |fs| ==>
        && InjectFieldsF(env, st, target, fs[..i], fuel).res.Success?
        && InjectF(env, InjectFieldsF(env, st, target, fs[..i], fuel).st, target, fs[i], fuel).res.Success?
  {
    if InjectFieldsF(env, st, target, fs, fuel).res.Success? {
      InjectFieldsAllSet(env, st, target, fs, fuel);
    } else {
      InjectFieldsFailure(env, st, target, fs, fuel);
    }
  }

  /** The exception `injectDependency` lets escape: its `catch (Exception)`
      turns every `CoreException` into a code-less one, while a stack
      overflow is an `Error` and passes through. */
  function Escaped(e: Fault): (r: Fault)
    ensures r == Generic || r == Exhausted
    ensures r == Exhausted <==> e == Exhausted
  {
    if e == Exhausted then Exhausted else Generic
  }

  /** `injectDependency(target, f)`: resolve the value, then set the field. */
  function InjectF(env: Env, st: State, target: nat, f: FieldDesc, fuel: nat): (r: Step<()>)
    requires Valid(st) && target in st.heap
    ensures Grows(st, r.st) && KeepsExcept(st, r.st, target) && Valid(r.st)
    ensures r.res.Failure? <==> InnerValueF(env, st, f, fuel).res.Failure?
    ensures r.res.Failure? ==> (r.res.error == Generic || r.res.error == Exhausted) && r.st.heap[target] == st.heap[target]
    ensures r.res.Success? ==>
      && f.name in r.st.heap[target].fields
      && r.st.heap[target] == st.heap[target].(fields := st.heap[target].fields[f.name := r.st.heap[target].fields[f.name]])
      && Wired(env, r.st, target, f)
    decreases fuel, 1, 0
  {
    var inner := InnerValueF(env, st, f, fuel);
    match inner.res
    case Failure(e) => Step(Failure(Escaped(e)), inner.st)
    case Success(v) =>
      var obj := inner.st.heap[target];
      Step(Success(()), inner.st.(heap := inner.st.heap[target := obj.(fields := obj.fields[f.name := v])]))
  }

  /** `injectDependency` assigns exactly the value the `try` resolved, and
      lets escape exactly `Escaped` of the exception raised there: a lookup
      or property failure escapes as `Generic`, never as `Exhausted`. */
  lemma InjectResolved(env: Env, st: State, target: nat, f: FieldDesc, fuel: nat)
    requires Valid(st) && target in st.heap
    ensures var r := InjectF(env, st, target, f, fuel);
      var inner := InnerValueF(env, st, f, fuel);
      && (r.res.Failure? ==> r.res.error == Escaped(inner.res.error))
      && (r.res.Success? ==> r.st.heap[target].fields[f.name] == inner.res.value)
      && (!RouteOf(env.u, f).ByPrototype? && r.res.Failure? ==> r.res.error == Generic)
  {
  }

  /** The value `injectDependency` assigns, or the specific exception raised
      inside its `try`. */
  function InnerValueF(env: Env, st: State, f: FieldDesc, fuel: nat): (r: Step<Value>)
    requires Valid(st)
    ensures Grows(st, r.st) && KeepsExcept(st, r.st, -1) && Valid(r.st)
    ensures match RouteOf(env.u, f)
      case ByProperty(k) =>
        r == Step(ResolveProperty(env.props, f.typeName, k, env.readInt, env.readBool), st)
      case ByLookup(n) =>
        && r.st == st
        && (r.res.Success? <==> Lookup(env.u, st.catalog, f.typeName, n).Success?)
        && (r.res.Success? ==> r.res.value == Ref(Lookup(env.u, st.catalog, f.typeName, n).value))
        && (r.res.Failure? ==> r.res.error == Lookup(env.u, st.catalog, f.typeName, n).error)
      case ByPrototype =>
        && (fuel == 0 ==> r == Step(Failure(Exhausted), st))
        && (r.res.Success? ==>
              r.res.value.Ref? && r.res.value.id !in st.heap && r.res.value.id in r.st.heap
              && r.st.heap[r.res.value.id].cls == f.typeName)
    decreases fuel, 0, 0
  {
    match RouteOf(env.u, f)
    case ByProperty(k) => Step(ResolveProperty(env.props, f.typeName, k, env.readInt, env.readBool), st)
    case ByPrototype =>
      if fuel == 0 then Step(Failure(Exhausted), st)
      else
        var p := ProtoF(env, st, f.typeName, fuel - 1);
        Step(if p.res.Failure? then Failure(p.res.error) else Success(Ref(p.res.value)), p.st)
    case ByLookup(n) =>
      match Lookup(env.u, st.catalog, f.typeName, n)
      case Failure(e) => Step(Failure(e), st)
      case Success(id) => Step(Success(Ref(id)), st)
  }

  /** The prototype route with fuel left is `ProtoF` one level down: the
      same state, success exactly when `ProtoF` succeeds, a reference to its
      object, or its failure. */
  lemma PrototypeRoute(env: Env, st: State, f: FieldDesc, fuel: nat)
    requires Valid(st) && RouteOf(env.u, f).ByPrototype? && fuel > 0
    ensures var r := InnerValueF(env, st, f, fuel);
      var p := ProtoF(env, st, f.typeName, fuel - 1);
      && r.st == p.st
      && (r.res.Success? <==> p.res.Success?)
      && (r.res.Success? ==> r.res.value == Ref(p.res.value))
      && (r.res.Failure? ==> r.res.error == p.res.error)
  {
  }

  /** What a field holds is kept while only other fields, or other objects,
      change. */
  lemma WiredStable(env: Env, st: State, st': State, target: nat, f: FieldDesc)
    requires Wired(env, st, target, f) && Grows(st, st') && KeepsExcept(st, st', target)
    requires st'.heap[target].cls == st.heap[target].cls
    requires f.name in st'.heap[target].fields
    requires st'.heap[target].fields[f.name] == st.heap[target].fields[f.name]
    ensures Wired(env, st', target, f)
  {
  }

  /** After wiring a list of fields succeeds, every one of them holds what
      its route prescribes. */
  lemma {:induction false} FieldsWired(env: Env, st: State, target: nat, fs: seq<FieldDesc>, fuel: nat)
    requires Valid(st) && target in st.heap && NamesIdentify(fs)
    requires InjectFieldsF(env, st, target, fs, fuel).res.Success?
    ensures forall f :: f in fs ==> Wired(env, InjectFieldsF(env, st, target, fs, fuel).st, target, f)
    decreases |fs|
  {
    if fs != [] {
      var first := InjectF(env, st, target, fs[0], fuel);
      var rest := fs[1..];
      var last := InjectFieldsF(env, first.st, target, rest, fuel);
      assert NamesIdentify(rest) by {
        assert forall f :: f in rest ==> f in fs;
      }
      FieldsWired(env, first.st, target, rest, fuel);
      if fs[0] !in rest {
        assert fs[0].name !in Names(rest);
        WiredStable(env, first.st, last.st, target, fs[0]);
      }
      assert forall f :: f in fs ==> f == fs[0] || f in rest;
    }
  }

  /** A prototype comes back with every `@Inject` field of its class wired. */
  lemma ProtoWired(env: Env, st: State, cls: string, fuel: nat)
    requires Valid(st) && WellFormed(env.u)
    requires ProtoF(env, st, cls, fuel).res.Success?
    ensures var r := ProtoF(env, st, cls, fuel);
      forall f :: f in InjectTargets(Describe(env.u, cls).fields) ==> Wired(env, r.st, r.res.value, f)
  {
    var made := InstanceF(env.u, st, cls);
    var fs := InjectTargets(Describe(env.u, cls).fields);
    InjectTargetsSelect(Describe(env.u, cls).fields);
    assert NamesIdentify(fs);
    FieldsWired(env, made.st, made.res.value, fs, fuel);
  }

  /** A prototype-routed field receives the object `ProtoF` makes one level
      down: the state is the one it leaves, and every `@Inject` field of the
      new object is wired, so a nested prototype is itself fully injected. */
  lemma PrototypeRouteWired(env: Env, st: State, f: FieldDesc, fuel: nat)
    requires Valid(st) && WellFormed(env.u)
    requires RouteOf(env.u, f).ByPrototype? && InnerValueF(env, st, f, fuel).res.Success?
    ensures var r := InnerValueF(env, st, f, fuel);
      && fuel > 0 && r.res.value.Ref?
      && r.st == ProtoF(env, st, f.typeName, fuel - 1).st
      && r.res.value.id == ProtoF(env, st, f.typeName, fuel - 1).res.value
      && forall g :: g in InjectTargets(Describe(env.u, f.typeName).fields) ==>
           Wired(env, r.st, r.res.value.id, g)
  {
    ProtoWired(env, st, f.typeName, fuel - 1);
  }

  /** The container sets no field of a prototype other than its class's
      `@Inject` fields: a field marked only `@PropertyValue` is left to the
      constructor. */
  lemma ProtoSetsOnlyInject(env: Env, st: State, cls: string, fuel: nat)
    requires Valid(st) && WellFormed(env.u)
    requires ProtoF(env, st, cls, fuel).res.Success?
    ensures var r := ProtoF(env, st, cls, fuel);
      forall f :: f in Describe(env.u, cls).fields && !f.inject ==> f.name !in r.st.heap[r.res.value].fields
  {
    var fs := Describe(env.u, cls).fields;
    var made := InstanceF(env.u, st, cls);
    var id := made.res.value;
    var r := ProtoF(env, st, cls, fuel);
    InjectTargetsSelect(fs);
    forall f | f in fs && !f.inject
      ensures f.name !in r.st.heap[id].fields
    {
      assert f.name !in Names(InjectTargets(fs));
    }
  }

  /** Two `prototype` calls give two distinct objects, and a singleton
      dependency of the class is the same bean in both. */
  lemma PrototypesShareSingletons(env: Env, st: State, cls: string, fuel: nat, f: FieldDesc)
    requires Valid(st) && WellFormed(env.u)
    requires ProtoF(env, st, cls, fuel).res.Success?
    requires ProtoF(env, ProtoF(env, st, cls, fuel).st, cls, fuel).res.Success?
    requires f in Describe(env.u, cls).fields && f.inject && RouteOf(env.u, f).ByLookup?
    ensures var one := ProtoF(env, st, cls, fuel);
      var two := ProtoF(env, one.st, cls, fuel);
      && one.res.value != two.res.value
      && one.res.value in two.st.heap && two.res.value in two.st.heap
      && f.name in two.st.heap[one.res.value].fields && f.name in two.st.heap[two.res.value].fields
      && two.st.heap[one.res.value].fields[f.name] == two.st.heap[two.res.value].fields[f.name]
  {
    var one := ProtoF(env, st, cls, fuel);
    var two := ProtoF(env, one.st, cls, fuel);
    var a, b := one.res.value, two.res.value;
    InjectTargetsSelect(Describe(env.u, cls).fields);
    ProtoWired(env, st, cls, fuel);
    ProtoWired(env, one.st, cls, fuel);
    assert Wired(env, one.st, a, f) && Wired(env, two.st, b, f);
    assert two.st.heap[a] == one.st.heap[a] && two.st.catalog == one.st.catalog;
  }
}

=== FILE: lifecycle.dfy ===
/** `init`: the `@PostConstruct` hooks of the registered beans, invoked bean
    by bean in registration order, each bean's in the order reflection
    returns them, until the first one throws. */
module Lifecycle {
  import opened Wrappers
  import opened Descriptors
  import opened Injection

  /** One hook invocation: on which object, which method. */
  datatype Call = Call(instance: nat, hook: MethodDesc)

  /** The invocations attempted, and how the run ended. */
  datatype InitRun = InitRun(trace: seq<Call>, res: Result<(), Fault>)

  predicate IsHook(m: MethodDesc)
  {
    m.postConstruct && m.paramCount == 0
  }

  /** The hooks `init` invokes on object `id`: its `@PostConstruct` methods
      without parameters, in the order reflection returns them. */
  function HookCalls(id: nat, ms: seq<MethodDesc>): (r: seq<Call>)
    ensures |r| <= |ms|
    ensures forall i :: 0 <= i < |r| ==> r[i].instance == id && IsHook(r[i].hook)
  {
    if ms == [] then []
    else (if IsHook(ms[0]) then [Call(id, ms[0])] else []) + HookCalls(id, ms[1..])
  }

  /** The hooks of object `id` are exactly its hook methods, each invoked on
      `id`. */
  lemma {:induction false} HookCallsSelect(id: nat, ms: seq<MethodDesc>)
    ensures forall c :: c in HookCalls(id, ms) <==> c.instance == id && c.hook in ms && IsHook(c.hook)
  {
    if ms != [] {
      HookCallsSelect(id, ms[1..]);
      assert forall m :: m in ms <==> m == ms[0] || m in ms[1..];
    }
  }

  /** Invokes the calls in order; the first that throws ends the run with
      `BEAN_INIT_FAILED`. */
  function RunHooks(cs: seq<Call>): (r: InitRun)
    ensures r.res.Failure? ==> r.res.error == Coded(BeanInitFailed)
  {
    if cs == [] then InitRun([], Success(()))
    else if cs[0].hook.outcome.Throws? then InitRun([cs[0]], Failure(Coded(BeanInitFailed)))
    else
      var rest := RunHooks(cs[1..]);
      InitRun([cs[0]] + rest.trace, rest.res)
  }

  /** The calls made are a prefix of those asked for, and the run succeeds
      exactly when no call throws, and then makes them all. */
  lemma {:induction false} RunHooksPrefix(cs: seq<Call>)
    ensures var r := RunHooks(cs);
      && r.trace <= cs
      && (r.res.Success? <==> forall i :: 0 <= i < |cs| ==> cs[i].hook.outcome.Returns?)
      && (r.res.Success? ==> r.trace == cs)
  {
    if cs != [] && cs[0].hook.outcome.Returns? {
      RunHooksPrefix(cs[1..]);
      assert forall i :: 1 <= i < |cs| ==> cs[i] == cs[1..][i - 1];
    }
  }

  /** A failed run ends with `BEAN_INIT_FAILED` right after the first call
      that throws: every call before it returned. */
  lemma {:induction false} RunHooksFailure(cs: seq<Call>)
    ensures var r := RunHooks(cs);
      r.res.Failure? ==>
        && r.res.error == Coded(BeanInitFailed)
        && |r.trace| > 0 && r.trace[|r.trace| - 1].hook.outcome.Throws?
        && forall i :: 0 <= i < |r.trace| - 1 ==> r.trace[i].hook.outcome.Returns?
  {
    if cs != [] && cs[0].hook.outcome.Returns? {
      RunHooksFailure(cs[1..]);
      var rest := RunHooks(cs[1..]);
      assert RunHooks(cs) == InitRun([cs[0]] + rest.trace, rest.res);
      assert forall i :: 1 <= i < |rest.trace| + 1 ==> ([cs[0]] + rest.trace)[i] == rest.trace[i - 1];
    }
  }

  /** The calls made are a prefix of those asked for; the run succeeds
      exactly when no call throws, and then makes them all; otherwise it
      stops right after the first call that throws. */
  lemma {:induction false} RunHooksStops(cs: seq<Call>)
    ensures var r := RunHooks(cs);
      && r.trace <= cs
      && (r.res.Success? <==> forall i :: 0 <= i < |cs| ==> cs[i].hook.outcome.Returns?)
      && (r.res.Success? ==> r.trace == cs)
      && (r.res.Failure? ==>
        && r.res.error == Coded(BeanInitFailed)
        && |r.trace| > 0 && r.trace[|r.trace| - 1].hook.outcome.Throws?
        && forall i :: 0 <= i < |r.trace| - 1 ==> r.trace[i].hook.outcome.Returns?)
  {
    RunHooksPrefix(cs);
    RunHooksFailure(cs);
  }

  /** Calls logged in two steps are the calls of both steps. */
  lemma LogTwice(log: seq<Call>, a: seq<Call>, b: seq<Call>)
    ensures (log + a) + b == log + (a + b)
  {
  }

  /** A run that follows calls already made without failure. */
  function After(done: seq<Call>, run: InitRun): InitRun
  {
    InitRun(done + run.trace, run.res)
  }

  /** Running two lists of calls one after the other is running their
      concatenation. */
  lemma {:induction false} RunHooksAppend(a: seq<Call>, b: seq<Call>)
    ensures RunHooks(a + b) == if RunHooks(a).res.Failure? then RunHooks(a) else After(a, RunHooks(b))
  {
    if a != [] {
      assert (a + b)[0] == a[0];
      assert (a + b)[1..] == a[1..] + b;
      if a[0].hook.outcome.Returns? {
        RunHooksAppend(a[1..], b);
        var tail := RunHooks(a[1..]);
        assert RunHooks(a) == InitRun([a[0]] + tail.trace, tail.res);
        assert RunHooks(a + b) == InitRun([a[0]] + RunHooks(a[1..] + b).trace, RunHooks(a[1..] + b).res);
        if tail.res.Success? {
          var t := RunHooks(b).trace;
          assert [a[0]] + (a[1..] + t) == a + t;
        }
      }
    } else {
      assert a + b == b && [] + RunHooks(b).trace == RunHooks(b).trace;
    }
  }


  /** Making call `i` after calls `done` that all returned. */
  lemma RunHooksStep(done: seq<Call>, cs: seq<Call>, i: nat)
    requires i < |cs|
    ensures After(done, RunHooks(cs[i..])) ==
      if cs[i].hook.outcome.Throws? then InitRun(done + [cs[i]], Failure(Coded(BeanInitFailed)))
      else After(done + [cs[i]], RunHooks(cs[i + 1..]))
  {
    assert cs[i..][0] == cs[i] && cs[i..][1..] == cs[i + 1..];
    if cs[i].hook.outcome.Returns? {
      var t := RunHooks(cs[i + 1..]).trace;
      assert done + ([cs[i]] + t) == (done + [cs[i]]) + t;
    }
  }

  /** The hooks `init` invokes on object `id` of the heap; an id the heap
      does not hold, which a valid state never registers, has none. */
  function Hooks(u: Universe, heap: map<nat, Obj>, id: nat): seq<Call>
  {
    if id in heap then HookCalls(id, Describe(u, heap[id].cls).methods) else []
  }

  /** Every hook of the beans `ids[from..]`, bean by bean. */
  function AllHooks(u: Universe, heap: map<nat, Obj>, ids: seq<nat>, from: nat): seq<Call>
    decreases |ids| - from
  {
    if from >= |ids| then [] else Hooks(u, heap, ids[from]) + AllHooks(u, heap, ids, from + 1)
  }

  /** `catalog.records().map(getInstance).forEach(init)` from the bean at
      position `from` on. */
  function InitF(u: Universe, heap: map<nat, Obj>, ids: seq<nat>, from: nat): (r: InitRun)
    ensures r.res.Failure? ==> r.res.error == Coded(BeanInitFailed)
    decreases |ids| - from
  {
    if from >= |ids| then InitRun([], Success(()))
    else
      var one := RunHooks(Hooks(u, heap, ids[from]));
      if one.res.Failure? then one else After(one.trace, InitF(u, heap, ids, from + 1))
  }

  /** Initialising the beans from position `i` on, after calls `done`: the
      bean at `i`, then, if none of its hooks threw, the rest. */
  lemma InitStep(u: Universe, heap: map<nat, Obj>, ids: seq<nat>, i: nat, done: seq<Call>)
    requires i < |ids|
    ensures var one := RunHooks(Hooks(u, heap, ids[i]));
      After(done, InitF(u, heap, ids, i)) ==
        if one.res.Failure? then After(done, one) else After(done + one.trace, InitF(u, heap, ids, i + 1))
  {
    var one := RunHooks(Hooks(u, heap, ids[i]));
    if one.res.Success? {
      var t := InitF(u, heap, ids, i + 1).trace;
      assert done + (one.trace + t) == (done + one.trace) + t;
    }
  }

  /** Initialising bean by bean is one run over all hooks, so the first
      failing hook stops every later hook, of the same bean or of later ones. */
  lemma {:induction false} InitFlat(u: Universe, heap: map<nat, Obj>, ids: seq<nat>, from: nat)
    ensures InitF(u, heap, ids, from) == RunHooks(AllHooks(u, heap, ids, from))
    decreases |ids| - from
  {
    if from < |ids| {
      var mine := Hooks(u, heap, ids[from]);
      InitFlat(u, heap, ids, from + 1);
      RunHooksStops(mine);
      RunHooksAppend(mine, AllHooks(u, heap, ids, from + 1));
    }
  }
}

=== FILE: properties.dfy ===
/** The property table: merging the configured sources with per-key
    overrides from the system properties, and coercing a property value to a
    field's declared type. */
module Properties {
  import opened Wrappers
  import opened Descriptors

  type Table = map<string, string>

  /** `putAll` of every readable source, in iteration order, into `m`; a
      source that cannot be read (`None`) is skipped. */
  function PutAll(m: Table, sources: seq<Option<Table>>): (r: Table)
    ensures m.Keys <= r.Keys
    decreases |sources|
  {
    if sources == [] then m
    else
      var before := PutAll(m, sources[..|sources| - 1]);
      match sources[|sources| - 1]
      case None => before
      case Some(t) => before + t
  }

  /** Replaces the value of every key already in `m` by the system property
      of that name, when one is set; adds no key. */
  function Override(m: Table, system: Table): (r: Table)
    ensures r.Keys == m.Keys
  {
    map k | k in m :: if k in system then system[k] else m[k]
  }

  /** The table after `resolveProperties` has run on table `m`. */
  function Merge(m: Table, sources: seq<Option<Table>>, system: Table): (r: Table)
    ensures m.Keys <= r.Keys
  {
    Override(PutAll(m, sources), system)
  }

  /** Some readable source defines `k`. */
  ghost predicate DefinedIn(sources: seq<Option<Table>>, k: string)
  {
    exists i :: 0 <= i < |sources| && sources[i].Some? && k in sources[i].value
  }

  /** Source `i` is the last readable source that defines `k`. */
  ghost predicate LastWriter(sources: seq<Option<Table>>, i: int, k: string)
  {
    && 0 <= i < |sources| && sources[i].Some? && k in sources[i].value
    && forall j :: i < j < |sources| && sources[j].Some? ==> k !in sources[j].value
  }

  /** Whether a key is defined splits between all sources but the last, and the last. */
  lemma SourcesPrefix(sources: seq<Option<Table>>, k: string)
    requires sources != []
    ensures DefinedIn(sources, k) <==>
      || DefinedIn(sources[..|sources| - 1], k)
      || (sources[|sources| - 1].Some? && k in sources[|sources| - 1].value)
  {
    var init := sources[..|sources| - 1];
    assert forall i :: 0 <= i < |init| ==> init[i] == sources[i];
  }

  /** A key ends up in the merged sources exactly when it was already there
      or some source defines it. */
  lemma {:induction false} PutAllKeys(m: Table, sources: seq<Option<Table>>, k: string)
    ensures k in PutAll(m, sources) <==> k in m || DefinedIn(sources, k)
    decreases |sources|
  {
    if sources != [] {
      var init := sources[..|sources| - 1];
      PutAllKeys(m, init, k);
      SourcesPrefix(sources, k);
    }
  }

  /** The last source to define a key wins. */
  lemma {:induction false} PutAllLastWriter(m: Table, sources: seq<Option<Table>>, i: int, k: string)
    requires LastWriter(sources, i, k)
    ensures k in PutAll(m, sources) && PutAll(m, sources)[k] == sources[i].value[k]
    decreases |sources|
  {
    var init := sources[..|sources| - 1];
    if i < |sources| - 1 {
      assert LastWriter(init, i, k) by {
        forall j | i < j < |init| && init[j].Some?
          ensures k !in init[j].value
        {
          assert init[j] == sources[j];
        }
      }
      PutAllLastWriter(m, init, i, k);
    }
  }

  /** A key no source defines keeps the value it had before the merge. */
  lemma {:induction false} PutAllUndefined(m: Table, sources: seq<Option<Table>>, k: string)
    requires k in m && !DefinedIn(sources, k)
    ensures k in PutAll(m, sources) && PutAll(m, sources)[k] == m[k]
    decreases |sources|
  {
    if sources != [] {
      var init := sources[..|sources| - 1];
      SourcesPrefix(sources, k);
      PutAllUndefined(m, init, k);
      assert !(sources[|sources| - 1].Some? && k in sources[|sources| - 1].value);
    }
  }

  /** The outcome of `resolveProperties` on a fresh, empty table: the keys
      are exactly those some source defines (a system property never adds a
      key), and each maps to the system property if set, otherwise to the
      value from the last source defining it. */
  lemma MergeFromEmpty(sources: seq<Option<Table>>, system: Table, k: string)
    ensures k in Merge(map[], sources, system) <==> DefinedIn(sources, k)
    ensures k in Merge(map[], sources, system) && k in system ==>
      Merge(map[], sources, system)[k] == system[k]
    ensures forall i :: LastWriter(sources, i, k) && k !in system ==>
      Merge(map[], sources, system)[k] == sources[i].value[k]
  {
    PutAllKeys(map[], sources, k);
    forall i | LastWriter(sources, i, k) && k !in system
      ensures Merge(map[], sources, system)[k] == sources[i].value[k]
    {
      PutAllLastWriter(map[], sources, i, k);
    }
  }

  // Declared-type names the coercion recognises.
  const JavaString := "java.lang.String"
  const JavaInteger := "java.lang.Integer"
  const JavaInt := "int"
  const JavaBooleanClass := "java.lang.Boolean"
  const JavaBoolean := "boolean"

  predicate IsIntType(typeName: string) { typeName == JavaInteger || typeName == JavaInt }
  predicate IsBoolType(typeName: string) { typeName == JavaBooleanClass || typeName == JavaBoolean }
  predicate Supported(typeName: string)
  {
    typeName == JavaString || IsIntType(typeName) || IsBoolType(typeName)
  }

  /** `v` is a faithful reading of the text `s` as a value of `typeName`,
      with `readInt` and `readBool` as the parsers. */
  ghost predicate Coerces(typeName: string, s: string, v: Value,
                          readInt: string -> Option<int>, readBool: string -> Option<bool>)
  {
    || (typeName == JavaString && v == Text(s))
    || (IsIntType(typeName) && v.Int? && readInt(s) == Some(v.i))
    || (IsBoolType(typeName) && v.Bool? && readBool(s) == Some(v.b))
  }

  /** The property value for `key`, coerced to the field type `typeName`
      (the switch over the type name in `resolveProperty`). */
  function ResolveProperty(props: Table, typeName: string, key: string,
                           readInt: string -> Option<int>, readBool: string -> Option<bool>)
    : (r: Result<Value, Fault>)
    ensures key !in props ==> r == Failure(Coded(PropertyNotFound))
    ensures r.Failure? ==> r.error == Coded(PropertyNotFound) || r.error == Coded(PropertyTypeError)
    ensures r.Success? ==> key in props && Coerces(typeName, props[key], r.value, readInt, readBool)
    ensures key in props && !Supported(typeName) ==> r == Failure(Coded(PropertyTypeError))
    ensures key in props && typeName == JavaString ==> r.Success?
    ensures key in props && IsIntType(typeName) ==> (r.Success? <==> readInt(props[key]).Some?)
    ensures key in props && IsBoolType(typeName) ==> (r.Success? <==> readBool(props[key]).Some?)
  {
    if key !in props then Failure(Coded(PropertyNotFound))
    else
      var value := props[key];
      if typeName == JavaString then Success(Text(value))
      else if IsIntType(typeName) then
        match readInt(value)
        case Some(n) => Success(Int(n))
        case None => Failure(Coded(PropertyTypeError))
      else if IsBoolType(typeName) then
        match readBool(value)
        case Some(b) => Success(Bool(b))
        case None => Failure(Coded(PropertyTypeError))
      else Failure(Coded(PropertyTypeError))
  }

  /** An unsupported type fails before any parser is consulted: the outcome
      does not depend on the parsers at all. */
  lemma UnsupportedNeverParses(props: Table, typeName: string, key: string,
                               readInt: string -> Option<int>, readBool: string -> Option<bool>,
                               readInt': string -> Option<int>, readBool': string -> Option<bool>)
    requires !Supported(typeName)
    ensures ResolveProperty(props, typeName, key, readInt, readBool)
         == ResolveProperty(props, typeName, key, readInt', readBool')
  {
  }
}

=== FILE: wrappers.dfy ===
/** Optional values and success/failure results, used for the container's
    nullable annotations and for its exceptions. */
module Wrappers {

  datatype Option<+T> = None | Some(value: T)

  datatype Result<+T, +E> = Success(value: T) | Failure(error: E)
}
